=== FILE: README.md ===
# A verified model of a hand-rolled growable array

This project models, in Dafny, the core of a Rust growable array (`Vec<T>`)
that is built in three layers:

- **The capacity policy and the raw buffer** (`src/raw_vec.rs`).
  - `RawVec<T>` is an allocation of `cap` slots.
  - It grows by a size-tiered rule:
    - ×2 for elements of at most 128 bytes, with a conditional round-up to a power of two;
    - +50% for elements of at most 1024 bytes;
    - +25% above 1024 bytes;
    - always capped at `1 << 48`.
  - It shrinks when less than a quarter of it is used, or when it wastes more than 1 MiB.
  - It moves blocks of slots in the manner of `memmove`.
- **The container** (`src/lib.rs`). `Vec<T>` is a raw buffer plus a length. The first `len` slots are the elements.
- **The cursor iterators** (`src/iter.rs`).
  - `Iter`, `IterMut`, `IntoIter` and `Drain` are each a window `[start, end)` over the buffer.
  - `next` takes the front slot and `next_back` the back slot.
  - Dropping a `Drain` compacts the vector.

The Dafny modules follow the layers:

| module | file | models |
|---|---|---|
| `Outcomes` | `outcomes.dfy` | `Option`, and the always-on panics of the source as `Outcome.Fatal(Panic)` |
| `CapacityPolicy` | `capacity_policy.dfy` | `calculate_growth`, the reserve/grow_to arithmetic, `should_shrink` and the shrink rule, as pure functions with lemmas |
| `RawBuffer` | `raw_vec.dfy` | `class RawVec`: an `array<T>` of exactly `cap` slots, reallocated on growth and shrink |
| `Iterators` | `iter.dfy` | `class Iter`, `IterMut`, `IntoIter`, `Drain`, each with cursor fields updated in place |
| `Container` | `vec.dfy` | `class Vec`: a `RawVec` plus `len`, with the ghost `Contents() == slots[..len]` |
| `Properties` | `properties.dfy` | multi-call properties: the stack law, insert/remove round trip, iteration order, draining, capacity evolution |

Modelling conventions:

- **Element size.** It is a constant field `elemSize` of the buffer, in bytes; 0 is a zero-sized type.
- **Integers.** `usize::MAX`, `isize::MAX`, saturating additions and the `checked_add(..).unwrap_or(MAX_CAPACITY)` fall-back are written out on unbounded naturals.
- **`next_power_of_two`.** It is the mathematical function, with `NextPowerOfTwo(0) == 1`.
- **Allocations.** A fresh allocation is a fresh `array<T>` whose initial values stand for uninitialised memory. A reallocation is a fresh array holding a copy of the kept prefix.
- **Panics.** An always-on panic (`panic!`, `assert!`, `.expect`) becomes an `Outcome.Fatal` carrying the panic's data. A `debug_assert!` becomes a precondition.
- **Mutable references.** A `&mut T` (from `get_mut`, `index_mut` and `IterMut`) is modelled as the index of the slot it designates. Writing through it is `WriteAt` at that slot.
- **Drain's drop.** `Drop for Drain` is the method `Drain.Finish`, called once.

Where the code departs from the usual `Vec` contract, the model follows the code:

- `Vec::reserve(k)` reserves `k` slots beyond the **capacity**, not beyond the length (`src/raw_vec.rs:124`).
  - For medium and large elements it may stop below even that (`CapacityPolicy.MediumReserveFallsShort`).
- The growth ratio of 1.2× to 2× holds along runs of pushes from `new()`, where every capacity is a power of two (`Properties.GrowthPattern`).
  - From other capacities growth can exceed 2×: 15 slots grow to 32 (`CapacityPolicy.GrowthAboveDoubleFromFifteen`).
- `with_capacity(n)` allocates exactly `n` slots even above `1 << 48`, as long as the layout fits in `isize::MAX` bytes.

## Model

| member | source | states |
|---|---|---|
| CapacityPolicy.NextPowerOfTwo | src/raw_vec.rs:50 | `next_power_of_two(n)` is a power of two, at least `n` and at least 1 |
| CapacityPolicy.WorthRounding | src/raw_vec.rs:50-53 | the 12.5% and 16 KiB rounding test; a capacity that is already a power of two always passes it |
| CapacityPolicy.MaxElements | src/raw_vec.rs:128-131 | the element limit never exceeds `MAX_CAPACITY`; its layout fits in `isize::MAX` bytes, and one element more would not, unless `MAX_CAPACITY` is what bounds it |
| CapacityPolicy.RequiredCap | src/raw_vec.rs:124-125 | `cap.checked_add(k).unwrap_or(MAX_CAPACITY)`: the exact sum whenever it fits in `usize`, otherwise `MAX_CAPACITY`, and never above the exact sum |
| CapacityPolicy.CappedRequired | src/raw_vec.rs:124-134 | the request reserve works with is within the element limit and the exact sum, and its layout fits |
| CapacityPolicy.GrowthRequest | src/raw_vec.rs:141-150 | from capacity 0 reserve asks for a power of two of at least 8 that covers the request; otherwise for the growth rule's result, within `MAX_CAPACITY` |
| CapacityPolicy.GrowToResult | src/raw_vec.rs:153-176 | `grow_to` ends on the requested capacity, the old one or the element limit; it never leaves a layout that does not fit except by staying put, and it advances whenever it is asked for more while below the element limit |
| CapacityPolicy.ReservedCap | src/raw_vec.rs:116-151 | `reserve` leaves `usize::MAX` for a zero-sized type; for a sized one it never shrinks, leaves a layout that fits or the old capacity, and is a no-op when the capped request is already covered |
| CapacityPolicy.ShouldShrink | src/raw_vec.rs:217-238 | `should_shrink` holds only for a sized element with spare slots, and always holds below 25% usage |
| CapacityPolicy.ShrunkCap | src/raw_vec.rs:240-278 | for a sized element `shrink_to_fit` never grows and never cuts below `len`; when it changes the capacity, `should_shrink` held and the result is a power of two of at least 8 |
| CapacityPolicy.NextPowerOfTwoIsLeast | src/raw_vec.rs:50 | `next_power_of_two(n)` is a power of two, at least `n`, no larger than any power of two at least `n`, and below `2n` once `n ≥ 1` |
| CapacityPolicy.NextPowerOfTwoFixesPowers | src/raw_vec.rs:50 | a power of two is its own next power of two |
| CapacityPolicy.MaxCapacityIsPowerOfTwo | src/raw_vec.rs:17 | the 64-bit `MAX_CAPACITY` (`1 << 48`) is a power of two |
| CapacityPolicy.DivBound | src/raw_vec.rs:128-131 | `n ≤ isize::MAX / size` exactly when `n * size ≤ isize::MAX`: the element limit is where the layout stops fitting |
| CapacityPolicy.CalculateGrowth | src/raw_vec.rs:22-60 | the growth rule; the result never exceeds `MAX_CAPACITY` |
| CapacityPolicy.InitialCap | src/raw_vec.rs:77-91 | `with_capacity(n)` for a sized type and `n > 0` allocates exactly `n` slots |
| CapacityPolicy.SmallGrowth | src/raw_vec.rs:36-59 | small elements: the result is at least `max(2·cap, required)` (capped) and at most 12.5% above it, never above `MAX_CAPACITY`; when it differs it is a power of two that wastes at most 16 KiB |
| CapacityPolicy.MediumGrowth | src/raw_vec.rs:31-46 | elements of 129 to 1024 bytes grow to exactly `min(cap + cap/2, required)`, unrounded |
| CapacityPolicy.LargeGrowth | src/raw_vec.rs:26-46 | elements above 1024 bytes grow to exactly `min(cap + cap/4, required)`, unrounded |
| CapacityPolicy.SmallMaxElements | src/raw_vec.rs:128-131 | for elements of 1 to 128 bytes the element limit is `MAX_CAPACITY` itself |
| CapacityPolicy.FitsBelowMaxElements | src/raw_vec.rs:164-170 | a capacity within the element limit has a layout that fits |
| CapacityPolicy.GrowthRequestBounded | src/raw_vec.rs:141-155 | reserve never asks `grow_to` for more than `MAX_CAPACITY`, so `grow_to`'s second debug assertion always holds |
| CapacityPolicy.GrowToAdvances | src/raw_vec.rs:153-176 | `grow_to` asked for more lands strictly above the old capacity and within `MAX_CAPACITY`, also through its layout fall-back |
| CapacityPolicy.ReserveChange | src/raw_vec.rs:124-150 | `reserve(k)` is a no-op exactly when `min(cap+k, max_elements) ≤ cap`; otherwise capacity strictly increases, up to `MAX_CAPACITY` |
| CapacityPolicy.ReserveFromEmpty | src/raw_vec.rs:141-146 | from capacity 0 reserve gives `next_power_of_two(max(request, 8))` for a sized element whose `next_power_of_two(max(request, 8))` slots fit in `isize::MAX` bytes: a power of two, at least 8 and at least the request |
| CapacityPolicy.FirstPushAllocatesMinimum | src/raw_vec.rs:141-146 | the first push of a small element allocates exactly 8 slots |
| CapacityPolicy.SmallReserveMeetsRequest | src/raw_vec.rs:116-151 | for small elements `reserve(k)` never shrinks, covers the capped request, and leaves `cap ≥ old cap + k` while that is within `MAX_CAPACITY` |
| CapacityPolicy.ReserveThousandFromEmpty | src/raw_vec.rs:595-609 | `reserve(1000)` from empty gives 1024 slots for `u8`, and 1024 (not 2048) for 1 KiB elements |
| CapacityPolicy.SmallGrowthOfPowerOfTwo | src/raw_vec.rs:36-59 | a power-of-two capacity asked for up to double grows to exactly double |
| CapacityPolicy.PushGrowthDoubles | src/lib.rs:48-53 | a push on a full power-of-two buffer of small elements exactly doubles it (within [1.2×, 2×]) and then fits |
| CapacityPolicy.GrowthSafeAdvances | src/raw_vec.rs:153-154 | from a growth-safe capacity every reserve satisfies `grow_to`'s assertion `new_cap > cap` |
| CapacityPolicy.GrowthSafeAfterReserve | src/raw_vec.rs:116-151 | reserve keeps the capacity growth-safe |
| CapacityPolicy.GrowthSafeAfterShrink | src/raw_vec.rs:240-278 | shrink keeps the capacity growth-safe |
| CapacityPolicy.GrowthSafePushFits | src/lib.rs:48-57 | from a growth-safe capacity a push always finds a free slot, up to the element limit |
| CapacityPolicy.ShrinkBounds | src/raw_vec.rs:240-278 | shrink never grows and never cuts below `len`. When it acts, it lands on `max(next_power_of_two(len), 8)` and `should_shrink` held. It always acts when usage is below 25% of a capacity above 8 |
| CapacityPolicy.ShrinkExamples | src/raw_vec.rs:528-542 | 1024 slots of `i32` with 128 used shrink to 128, a power of two below the old capacity, and 90% usage stays |
| CapacityPolicy.ShrinkMemoryThreshold | src/raw_vec.rs:612-627 | 2048 slots of 1 KiB with 512 used shrink to 512, and one below capacity stays |
| CapacityPolicy.ZeroSizedIsUnbounded | src/raw_vec.rs:545-554 | for a zero-sized type `reserve`, `shrink_to_fit` and `with_capacity` all leave `usize::MAX` |
| CapacityPolicy.GrowthStallsAtSmallCapacity | src/raw_vec.rs:26-35 | as written, a medium element at capacity 1 and a large element at capacity 3 ask `grow_to` for no more than they have, so a push cannot fit |
| CapacityPolicy.GrowthAboveDoubleFromFifteen | src/raw_vec.rs:36-59 | a push at capacity 15 grows to 32, more than double |
| CapacityPolicy.MediumReserveFallsShort | src/raw_vec.rs:124-150 | medium elements: `reserve(4)` at capacity 4 stops at 6, below the 8 asked for |
| CapacityPolicy.SmallReserveReachesEnd | src/raw_vec.rs:341-348 | for 1–128-byte elements, a reserve up to an end position within `MAX_CAPACITY` passes `grow_to`'s assertion and reaches that position: `shift_right`'s reserve never falls short for them |
| CapacityPolicy.CalculateGrowthAtLeastOne | src/raw_vec.rs:26-35 | the corrected rule always grows by at least one slot |
| CapacityPolicy.CorrectedGrowthAdvances | src/raw_vec.rs:26-35 | the corrected rule stays within `MAX_CAPACITY` and never passes the request for medium and large elements. It agrees with the as-written rule wherever that one already grew |
| RawBuffer.Moved | src/raw_vec.rs:377-383 | `ptr::copy` on a slot sequence keeps the length; slots outside the destination keep their values |
| RawBuffer.MovedLeftJoins | src/raw_vec.rs:359-384 | moving the tail `[b, n)` down to `a` leaves `s[..a] + s[b..n]` in front |
| RawBuffer.MovedNothing | src/raw_vec.rs:361-363 | a move of zero slots changes nothing |
| RawBuffer.RawVec.New | src/raw_vec.rs:62-75 | `new()` has capacity 0 for every element size |
| RawBuffer.RawVec.Allocated | src/raw_vec.rs:105-109 | a buffer over a fresh allocation of exactly the requested slots |
| RawBuffer.RawVec.WithCapacity | src/raw_vec.rs:76-110 | `usize::MAX` slots for a zero-sized type, 8 for a request of 0, otherwise exactly the request; for every `usize` request it panics exactly when the layout exceeds `isize::MAX` bytes |
| RawBuffer.RawVec.Capacity | src/raw_vec.rs:112-114 | the capacity is the number of slots of the allocation |
| RawBuffer.RawVec.Reallocate | src/raw_vec.rs:180-213 | a fresh allocation of the new capacity whose first `keep` slots are the old ones |
| RawBuffer.RawVec.GrowTo | src/raw_vec.rs:153-215 | capacity becomes `GrowToResult` (the request, or the element limit when the layout is too large), never decreasing; every old slot is kept |
| RawBuffer.RawVec.Reserve | src/raw_vec.rs:116-151 | capacity becomes `ReservedCap(old cap, k)`; slots `[0, old cap)` keep their values; the allocation is replaced exactly when the capacity changes |
| RawBuffer.RawVec.ShrinkToFit | src/raw_vec.rs:240-278 | capacity becomes `ShrunkCap(old cap, len)`, never below `len`; slots `[0, len)` keep their values |
| RawBuffer.RawVec.ReadAt | src/raw_vec.rs:285-295 | yields the value of slot `index` |
| RawBuffer.RawVec.WriteAt | src/raw_vec.rs:297-307 | slot `index` gets the item and no other slot changes |
| RawBuffer.RawVec.GetRef | src/raw_vec.rs:309-318 | yields the value of slot `index` |
| RawBuffer.RawVec.GetMut | src/raw_vec.rs:320-329 | designates slot `index` |
| RawBuffer.RawVec.ShiftRight | src/raw_vec.rs:331-357 | panics exactly when `index + places + count` overflows `usize`. Otherwise it grows by reserve when that end passes the capacity, old `[i, i+c)` lands at `[i+p, i+p+c)`, and every other old slot is kept |
| RawBuffer.RawVec.ShiftLeft | src/raw_vec.rs:359-384 | a count of 0 changes nothing; a place count above the index panics with `ShiftIndexUnderflow` and changes nothing; otherwise slots `[i−p, i−p+c)` get old `[i, i+c)` and every other slot is unchanged |
| RawBuffer.RawVec.Clone | src/raw_vec.rs:404-412 | a fresh buffer from `with_capacity(cap)` (8 slots from capacity 0) whose first `cap` slots equal the original's |
| Iterators.Iter.constructor | src/iter.rs:36-40 | a window `[start, end)` over the buffer, nothing yielded yet |
| Iterators.Iter.Next | src/iter.rs:77-87 | None exactly when `start == end`, cursors unchanged; otherwise the slot at `start`, never yielded before, and `start` advances |
| Iterators.Iter.NextBack | src/iter.rs:176-185 | None exactly when `start == end`, cursors unchanged; otherwise `end` retreats and the slot there, never yielded before, is yielded |
| Iterators.Iter.SizeHint | src/iter.rs:89-91 | exactly the number of items left, as both bounds |
| Iterators.IterMut.constructor | src/iter.rs:42-46 | a window `[start, end)` over the buffer, nothing handed out yet |
| Iterators.IterMut.Next | src/iter.rs:94-106 | None exactly when `start == end`; otherwise the slot at `start`, never handed out before |
| Iterators.IterMut.NextBack | src/iter.rs:187-199 | None exactly when `start == end`; otherwise the slot at `end − 1`, never handed out before |
| Iterators.IterMut.SizeHint | src/iter.rs:108-110 | exactly the number of slots left, as both bounds |
| Iterators.IntoIter.constructor | src/iter.rs:30-34 | takes the buffer with window `[start, end)` |
| Iterators.IntoIter.Next | src/iter.rs:60-70 | None exactly when `start == end`; otherwise the front item, moved out exactly once |
| Iterators.IntoIter.NextBack | src/iter.rs:131-140 | None exactly when `start == end`; otherwise the back item, moved out exactly once |
| Iterators.IntoIter.SizeHint | src/iter.rs:72-74 | exactly the number of items left, as both bounds |
| Iterators.Drain.constructor | src/iter.rs:48-58 | a drain of `[start, end)` from a vector of length `len`, recording the original start |
| Iterators.Drain.Next | src/iter.rs:113-124 | None exactly when `start == end`; otherwise the front item, moved out exactly once |
| Iterators.Drain.NextBack | src/iter.rs:142-152 | None exactly when `start == end`; otherwise the back item, moved out exactly once |
| Iterators.Drain.SizeHint | src/iter.rs:126-128 | exactly the number of items left, as both bounds |
| Iterators.Drain.ReleaseRest | src/iter.rs:156-162 | releases `[start, end)`; every slot of the drained range ends up either yielded or released, never both |
| Iterators.Drain.Finish | src/iter.rs:154-174 | the drop as written: releases what was not yielded, then moves the `len − end` tail from `end` down by `end − original_start` |
| Iterators.Drain.FinishCorrected | src/iter.rs:154-174 | the drop as intended: the vector's live prefix is exactly the slots before the range followed by those after it |
| Container.Vec.New | src/lib.rs:18-23 | empty, capacity 0 |
| Container.Vec.FromParts | src/lib.rs:26-29 | a vector over a given buffer and length |
| Container.Vec.WithCapacity | src/lib.rs:25-30 | empty, over `RawVec::with_capacity(n)`, panicking exactly as it does |
| Container.Vec.Capacity | src/lib.rs:32-34 | the buffer's slot count, never below the length |
| Container.Vec.Len | src/lib.rs:36-38 | the number of elements |
| Container.Vec.IsEmpty | src/lib.rs:40-42 | true exactly when there are no elements |
| Container.Vec.Reserve | src/lib.rs:44-46 | elements unchanged; capacity becomes `ReservedCap(old cap, k)` (capacity-relative) |
| Container.Vec.GrowIfFull | src/lib.rs:49-53 | at capacity, reserves `max(1, cap/2)`; afterwards there is a free slot and the elements are unchanged |
| Container.Vec.Push | src/lib.rs:48-57 | elements become `old + [item]`; capacity grows by the push reserve exactly when full |
| Container.Vec.Pop | src/lib.rs:59-66 | None exactly when empty, with no change; otherwise the last element, and `old == new + [it]` |
| Container.Vec.Insert | src/lib.rs:68-86 | panics with `(index, len)` exactly when `index > len`, changing nothing; otherwise elements become `old[..i] + [x] + old[i..]` |
| Container.Vec.InsertWithRoom | src/lib.rs:82-85 | with a free slot, the shift never reallocates and elements become `old[..i] + [x] + old[i..]` |
| Container.Vec.Remove | src/lib.rs:89-102 | panics with `(index, len)` exactly when `index ≥ len`, changing nothing; otherwise returns `old[i]` and leaves `old[..i] + old[i+1..]` |
| Container.Vec.ShrinkToFit | src/lib.rs:104-106 | elements unchanged; capacity becomes `ShrunkCap(old cap, len)` |
| Container.Vec.Truncate | src/lib.rs:108-118 | keeps the first `min(n, len)` elements; capacity changes only by the shrink rule, and only when fewer than `cap/4` remain |
| Container.Vec.Clear | src/lib.rs:120-123 | no elements; capacity unchanged |
| Container.Vec.Iter | src/lib.rs:125-127 | an iterator whose remaining items are exactly the elements |
| Container.Vec.IterMut | src/lib.rs:129-132 | an iterator over exactly the element slots `[0, len)` |
| Container.Vec.IntoIter | src/lib.rs:207-216 | an owning iterator whose remaining items are exactly the elements |
| Container.Vec.Drain | src/lib.rs:134-152 | panics exactly when `a > b` or `b > len`. Otherwise the length drops by `b − a` at once, and the Drain is created over `[a, b)` with the original length and remaining items `old[a..b]` |
| Container.Vec.Index | src/lib.rs:163-172 | panics with `(index, len)` exactly when `index ≥ len`; otherwise the element there |
| Container.Vec.IndexMut | src/lib.rs:174-182 | panics exactly when `index ≥ len`; otherwise designates that element's slot |
| Container.Vec.Extend | src/lib.rs:226-236 | reserves the size hint's upper bound (else lower), then pushes every item; elements become `old + items`, the capacity is at least what `reserve(hint)` gives from the old capacity, and it stays growth-safe |
| Container.Vec.FromIter | src/lib.rs:218-224 | a new vector whose elements are exactly the items, with at least the capacity `reserve(hint)` gives from empty |
| Container.Vec.Clone | src/lib.rs:198-205 | the same elements over a clone of the buffer |
| Properties.Build | src/lib.rs:48-57 | pushing the items one by one onto `new()` gives exactly those elements |
| Properties.CollectForward | tests/property.rs:100-103 | a full forward pass of `iter()` yields exactly the elements in order |
| Properties.LastFirstAt | tests/property.rs:105-108 | element `i` of the reversal is element `len − 1 − i` of the original |
| Properties.CollectBackward | tests/property.rs:105-108 | a full backward pass (`iter().rev()`) yields exactly the elements reversed |
| Properties.StackLaw | tests/property.rs:6-26 | pushing `v0..vn−1` and popping `n` times gives `vn−1..v0`; one more pop gives None |
| Properties.InsertSmall | src/lib.rs:68-86 | an in-range insert on an `i32` vector below the element limit always succeeds |
| Properties.InsertThenRemove | tests/property.rs:43-61 | `insert(i, x)` then `remove(i)` returns `x` and restores the elements |
| Properties.InsertRemoveWalkThrough | src/lib.rs:283-295 | inserts at 0, 1, 1 give `[1, 2, 3]`; `remove(1)` returns 2 and leaves `[1, 3]` |
| Properties.OutOfRangePanics | src/lib.rs:297-309 | on an empty vector `insert(5, _)` and `remove(5)` panic with index 5 and length 0 |
| Properties.IndexWalkThrough | src/lib.rs:325-342 | `v[0]` reads 1; after `v[1] = 3`, `v[1]` reads 3; `v[2]` panics with `(2, 2)` |
| Properties.AssignAt | src/lib.rs:174-182 | `v[i] = x` panics exactly when `i ≥ len`; otherwise only slot `i` changes |
| Properties.CollectDrain | src/iter.rs:113-124 | running a drain's `next` to None yields exactly its remaining items |
| Properties.DrainForward | tests/property.rs:136-153 | draining `a..b` with `next` only and dropping yields `old[a..b]` and leaves `old[..a] + old[b..]` |
| Properties.DrainPartial | src/iter.rs:154-174 | a drain of `a..b` dropped after only `k` calls to `next` yields `old[a..a+k]` and still leaves `old[..a] + old[b..]` |
| Properties.DrainOneBack | src/iter.rs:142-152 | `drain(1..4)` of `[0..4]` and one `next_back` yields 3 and leaves the drain's `end` at 3 |
| Properties.DrainBackThenDrop | src/iter.rs:154-174 | as written, that drain dropped after one `next_back` leaves `[0, 3]` |
| Properties.DrainBackThenDropCorrected | src/iter.rs:154-174 | with the corrected drop the same run leaves `[0, 4]` |
| Properties.TakeBothEnds | src/iter.rs:131-140 | one `next` then `next_back` of an `IntoIter`: each yields the slot at its cursor, or None once the cursors meet |
| Properties.AlternatingEnds | tests/iterator.rs:4-18 | alternating `next`/`next_back` over `[0, 1, 2, 3, 4]` yields 0, 4, 1, 3, 2, then None from both ends |
| Properties.IncrementAll | tests/property.rs:110-118 | adding one through every `iter_mut` slot changes exactly elements `[0, len)`, each by one, and no slot past them |
| Properties.TruncateShrinks | src/lib.rs:422-443 | truncating to `n` below a quarter of the capacity keeps `old[..n]` and strictly reduces the capacity, never below `n` |
| Properties.PushCapacityStep | src/lib.rs:48-53 | a push from a power-of-two capacity (or 0) fits and leaves a power of two: 8 from empty, otherwise the same or double |
| Properties.PushOntoPowerOfTwo | src/lib.rs:48-57 | such a push keeps the capacity a power of two of at least 8, changing it within [1.2×, 2×] |
| Properties.GrowthPattern | src/lib.rs:401-420 | from `new()`, `n` pushes: capacity 8 after the first, never below the length, and every change within [1.2×, 2×] |
| Properties.ClearAndReuse | src/lib.rs:445-465 | clear keeps the capacity, and refilling with no more elements reuses it unchanged |
| Properties.ShrinkAfterWithCapacity | src/lib.rs:380-399 | `with_capacity(100)` plus 20 pushes shrinks to 32 slots and keeps `0..19` |
| Properties.ReserveTwice | src/raw_vec.rs:439-447 | `reserve(5)` from empty gives 8, then `reserve(10)` gives 18 (16 from doubling, 32 rejected as over 12.5%) |

## Left out

- Allocator plumbing is not modelled: `Layout` beyond its size check, `alloc`, `realloc` and its alloc-copy-dealloc fall-back, `handle_alloc_error`, and `RawVec`'s `Drop`/`dealloc`. Reallocation is a fresh array holding a copy of the kept prefix, and allocation failure is not modelled.
- `RawVec::ptr`, `Deref`/`DerefMut`/`as_slice`/`as_mut_slice` build raw slices; the ghost `Contents()` stands for the slice.
- `Debug`, `Default` and the `println!` calls in `Drain::next`/`next_back` are formatting and I/O.
- Lifetimes and borrow exclusivity of `Iter`/`IterMut`/`Drain` are enforced by Rust's type checker. The model does not stop a caller from mutating the vector while an iterator is live.
- Element destructors are not modelled: `ptr::drop_in_place` in the drain's drop becomes the ghost `released` set, and `ManuallyDrop`/`ptr::read` in `into_iter` becomes sharing the buffer.
- The 32-bit `MAX_CAPACITY` (`1 << 30`) is left out; the model fixes the 64-bit `1 << 48`.
- `should_shrink`'s `f64` ratios are exact integer comparisons: `4·len < cap` and `4·(cap − len) > cap`.
- `RawVec::clone` reads every slot, including uninitialised ones. The model copies the slot values; the memory-safety side of reading uninitialised slots is not modelled.
- `extend` takes any `IntoIterator`. The model takes the items as a sequence and the size hint as a separate `(lower, upper)` pair, since a hint need not be exact.
- RawBuffer.RawVec.ShiftRight: requires that, when the end position passes the capacity, the reserve reaches it. As written, a medium or large element's reserve can fall short (`CapacityPolicy.MediumReserveFallsShort`), and the copy then writes past the allocation; for 1–128-byte elements the precondition always holds below `MAX_CAPACITY` (`CapacityPolicy.SmallReserveReachesEnd`).
- RawBuffer.RawVec.GrowTo: its `debug_assert!`s (`new_cap > cap`, `new_cap ≤ MAX_CAPACITY`) are preconditions. In a release build a request not above the capacity reallocates to exactly that size (src/raw_vec.rs:177-213), which can cut the buffer; that path is not modelled. The out-of-bounds write it leads to comes later, in push's `write_at`.
- RawBuffer.RawVec.Reserve: inherits `GrowTo`'s precondition as `GrowthAdvances`, so the release-build reallocation on a stalled growth is not modelled.
- RawBuffer.RawVec.ShiftLeft, RawBuffer.RawVec.ReadAt, RawBuffer.RawVec.WriteAt, RawBuffer.RawVec.GetRef, RawBuffer.RawVec.GetMut: their `debug_assert!`s that the slots lie within the capacity are preconditions. Past them a release build reads or writes outside the allocation, which is undefined behaviour and is not modelled. `shift_left`'s always-on underflow panic is modelled.
- Container.Vec.Push: requires `PushFits`, the growth not stalling; see the first finding. Container.Vec.Insert requires the same.
- Container.Vec.Extend, Container.Vec.FromIter: require a growth-safe capacity (`GrowthSafe`) and no more items than the element limit. Besides the stall, `GrowthSafe` excludes vectors that would never need to grow: for example `extend` with no items on a vector of 129–1024-byte elements from `with_capacity(1)`, which the source runs without effect (`reserve(0)` is a no-op and nothing is pushed).
- Container.Vec.Push, Container.Vec.Insert: the length's `checked_add(1).expect(..)` panic is not an outcome, because the length stays below a capacity of at most `usize::MAX` and cannot overflow.
- Iterators.Iter.constructor, Iterators.IterMut.constructor, Iterators.IntoIter.constructor, Iterators.Drain.constructor: require `start ≤ end ≤ cap` (and `end ≤ len ≤ cap` for the drain). Every caller in the source meets this; a direct call with a wider window is not modelled.
- Iterators.IterMut.Next, Iterators.IterMut.NextBack, Container.Vec.IndexMut: a `&mut T` is the slot index, so writes through it are separate `WriteAt` calls rather than aliasing.
- Container.Vec.IterMut: states that the slots to come are as many as the elements; the slots themselves are `[0, len)` through the `start`/`end` fields.
- The growth-stall correction (`CapacityPolicy.CalculateGrowthAtLeastOne`) is proved on its own. The buffer and the container keep the as-written rule behind the `PushFits`/`GrowthSafe` preconditions, so that they model the code as it is.

## Findings

| source | as written | input that shows it | evidently intended | confidence | as-written member | corrected member |
|---|---|---|---|---|---|---|
| src/raw_vec.rs:26-35 | medium and large elements grow to `min(cap + cap/2, required)` or `min(cap + cap/4, required)`. At capacity 1 (medium) or 1 to 3 (large) that is `cap` itself, so push's `reserve(max(1, cap/2))` asks `grow_to` for no growth and `grow_to`'s `debug_assert!(new_cap > cap)` fails | a 512-byte element at capacity 1 and length 1, then `push`; a 2048-byte element at capacity 3 and length 3, then `push` | grow by the tier's fraction but by at least one slot | high; not executed | CapacityPolicy.GrowthStallsAtSmallCapacity | CapacityPolicy.CorrectedGrowthAdvances |
| src/iter.rs:165-171 | the drop computes the tail length and the shift distance from the cursor `end`, which `next_back` has lowered below the end of the drained range | `[0, 1, 2, 3, 4]`, `drain(1..4)`, one `next_back` (yields 3), drop: the vector becomes `[0, 3]`, holding the already-moved-out 3 | shift the tail from the end of the drained range, giving `[0, 4]` | high; not executed | Properties.DrainBackThenDrop | Properties.DrainBackThenDropCorrected |

=== FILE: capacity_policy.dfy ===
/** The capacity policy of the raw buffer: how many slots a growth or a shrink
    request ends with, given the current capacity, the request and the size in
    bytes of one element (0 for a zero-sized element type).

    Everything here is pure arithmetic over unbounded naturals; the 64-bit
    bounds of `usize` and `isize`, saturation and overflow fall-backs of the
    source are written out explicitly. */
module CapacityPolicy {

  const USIZE_MAX: nat := 0xFFFF_FFFF_FFFF_FFFF
  const ISIZE_MAX: nat := 0x7FFF_FFFF_FFFF_FFFF

  const MIN_NON_ZERO_CAP: nat := 8
  /** Wasted bytes above which a shrink is worth it even at moderate usage (1 MiB). */
  const MAX_EXCESS_CAPACITY: nat := 1024 * 1024
  /** The 64-bit platform limit on capacity, 1 << 48. */
  const MAX_CAPACITY: nat := 0x1_0000_0000_0000
  /** Elements up to this many bytes are "small": they double and may round up. */
  const SMALL_ELEM: nat := 128
  /** Elements up to this many bytes (and above SMALL_ELEM) are "medium": +50%. */
  const MEDIUM_ELEM: nat := 1024
  /** Rounding up to a power of two may waste at most this many bytes (16 KiB). */
  const ROUNDING_WASTE_LIMIT: nat := 16 * 1024

  function Min(a: nat, b: nat): nat { if a <= b then a else b }
  function Max(a: nat, b: nat): nat { if a >= b then a else b }

  /** `usize::saturating_add`. */
  function SaturatingAdd(a: nat, b: nat): nat { Min(a + b, USIZE_MAX) }

  // ---------------------------------------------------------------------------
  // Powers of two

  predicate IsPowerOfTwo(n: nat)
    decreases n
  {
    n == 1 || (n >= 2 && n % 2 == 0 && IsPowerOfTwo(n / 2))
  }

  /** The first of p, 2p, 4p, ... that is at least n. */
  function PowerAtLeast(n: nat, p: nat): (r: nat)
    requires p >= 1
    ensures r >= n && r >= p
    decreases n - p
  {
    if p >= n then p else PowerAtLeast(n, 2 * p)
  }

  /** `usize::next_power_of_two` as a mathematical function (no overflow), with
      NextPowerOfTwo(0) == 1. */
  function NextPowerOfTwo(n: nat): (p: nat)
    ensures IsPowerOfTwo(p) && p >= n && p >= 1
  {
    PowerAtLeastIsPowerOfTwo(n, 1);
    PowerAtLeast(n, 1)
  }

  lemma DoublePowerOfTwo(p: nat)
    requires IsPowerOfTwo(p)
    ensures IsPowerOfTwo(2 * p)
  {
    assert (2 * p) / 2 == p;
  }

  lemma {:induction false} PowerAtLeastIsPowerOfTwo(n: nat, p: nat)
    requires p >= 1 && IsPowerOfTwo(p)
    ensures IsPowerOfTwo(PowerAtLeast(n, p))
    decreases n - p
  {
    if p < n {
      DoublePowerOfTwo(p);
      PowerAtLeastIsPowerOfTwo(n, 2 * p);
    }
  }

  /** Between two distinct powers of two there is at least a factor two. */
  lemma {:induction false} DoubleBelowPowerOfTwo(p: nat, q: nat)
    requires IsPowerOfTwo(p) && IsPowerOfTwo(q) && p < q
    ensures 2 * p <= q
    decreases q
  {
    if p != 1 {
      DoubleBelowPowerOfTwo(p / 2, q / 2);
    }
  }

  lemma {:induction false} PowerAtLeastIsLeast(n: nat, p: nat, q: nat)
    requires p >= 1 && IsPowerOfTwo(p) && IsPowerOfTwo(q) && n <= q && p <= q
    ensures PowerAtLeast(n, p) <= q
    decreases n - p
  {
    if p < n {
      DoubleBelowPowerOfTwo(p, q);
      DoublePowerOfTwo(p);
      PowerAtLeastIsLeast(n, 2 * p, q);
    }
  }

  lemma {:induction false} PowerAtLeastBelowDouble(n: nat, p: nat)
    requires 1 <= n && 1 <= p < 2 * n
    ensures PowerAtLeast(n, p) < 2 * n
    decreases n - p
  {
    if p < n {
      PowerAtLeastBelowDouble(n, 2 * p);
    }
  }

  /** NextPowerOfTwo(n) is the least power of two that is at least n, and it is
      below 2n once n is positive. */
  lemma NextPowerOfTwoIsLeast(n: nat)
    ensures IsPowerOfTwo(NextPowerOfTwo(n))
    ensures forall q :: IsPowerOfTwo(q) && n <= q ==> NextPowerOfTwo(n) <= q
    ensures n >= 1 ==> NextPowerOfTwo(n) < 2 * n
  {
    PowerAtLeastIsPowerOfTwo(n, 1);
    forall q | IsPowerOfTwo(q) && n <= q
      ensures NextPowerOfTwo(n) <= q
    {
      PowerAtLeastIsLeast(n, 1, q);
    }
    if n >= 1 {
      PowerAtLeastBelowDouble(n, 1);
    }
  }

  lemma NextPowerOfTwoFixesPowers(n: nat)
    requires IsPowerOfTwo(n)
    ensures NextPowerOfTwo(n) == n
  {
    NextPowerOfTwoIsLeast(n);
  }

  /** Twelve doublings of a power of two. */
  lemma TimesFourKiB(p0: nat)
    requires IsPowerOfTwo(p0)
    ensures IsPowerOfTwo(0x1000 * p0)
  {
    var p1 := 2 * p0;
    DoublePowerOfTwo(p0);
    var p2 := 2 * p1;
    DoublePowerOfTwo(p1);
    var p3 := 2 * p2;
    DoublePowerOfTwo(p2);
    var p4 := 2 * p3;
    DoublePowerOfTwo(p3);
    var p5 := 2 * p4;
    DoublePowerOfTwo(p4);
    var p6 := 2 * p5;
    DoublePowerOfTwo(p5);
    var p7 := 2 * p6;
    DoublePowerOfTwo(p6);
    var p8 := 2 * p7;
    DoublePowerOfTwo(p7);
    var p9 := 2 * p8;
    DoublePowerOfTwo(p8);
    var p10 := 2 * p9;
    DoublePowerOfTwo(p9);
    var p11 := 2 * p10;
    DoublePowerOfTwo(p10);
    var p12 := 2 * p11;
    DoublePowerOfTwo(p11);
    assert p12 == 0x1000 * p0;
  }

  lemma MaxCapacityIsPowerOfTwo()
    ensures IsPowerOfTwo(MAX_CAPACITY)
  {
    assert IsPowerOfTwo(0x1000);
    TimesFourKiB(0x1000);
    TimesFourKiB(0x100_0000);
    TimesFourKiB(0x10_0000_0000);
  }

  // ---------------------------------------------------------------------------
  // Nonlinear helpers

  lemma {:induction false} MulMonotone(x: nat, y: nat, m: nat)
    requires x <= y
    ensures x * m <= y * m
  {
    if m > 0 {
      MulMonotone(x, y, m - 1);
      assert x * m == x * (m - 1) + x;
      assert y * m == y * (m - 1) + y;
    }
  }

  /** n fits under b / d exactly when n * d fits under b. */
  lemma DivBound(n: nat, b: nat, d: nat)
    requires d > 0
    ensures n <= b / d <==> n * d <= b
  {
    var q, r := b / d, b % d;
    assert b == q * d + r && r < d;
    if n <= q {
      MulMonotone(n, q, d);
    } else {
      MulMonotone(q + 1, n, d);
      assert (q + 1) * d == q * d + d;
    }
  }

  // ---------------------------------------------------------------------------
  // Growth

  /** `calculate_growth`: the capacity a non-empty buffer of `cap` slots grows
      to when `required` slots are requested (src/raw_vec.rs:22-60). */
  function CalculateGrowth(cap: nat, required: nat, elemSize: nat): (r: nat)
    ensures r <= MAX_CAPACITY
  {
    var minGrowth :=
      if elemSize > MEDIUM_ELEM then Min(SaturatingAdd(cap, cap / 4), required)
      else if elemSize > SMALL_ELEM then Min(SaturatingAdd(cap, cap / 2), required)
      else SaturatingAdd(cap, cap);
    var newCap := if elemSize <= SMALL_ELEM then Max(minGrowth, required) else minGrowth;
    var rounded :=
      if elemSize <= SMALL_ELEM && WorthRounding(newCap, elemSize) then NextPowerOfTwo(newCap)
      else newCap;
    Min(rounded, MAX_CAPACITY)
  }

  /** Rounding n up to a power of two adds at most 12.5% and wastes at most
      16 KiB of element storage. */
  predicate WorthRounding(n: nat, elemSize: nat)
    ensures IsPowerOfTwo(n) && n <= USIZE_MAX ==> WorthRounding(n, elemSize)
  {
    var p := NextPowerOfTwo(n);
    NextPowerOfTwoIsLeast(n);
    p <= SaturatingAdd(n, n / 8) && (p - n) * elemSize <= ROUNDING_WASTE_LIMIT
  }

  /** `isize::MAX / max(size, 1)` clamped to the platform limit: the largest
      count whose layout fits, unless the platform limit is lower. */
  function MaxElements(elemSize: nat): (r: nat)
    ensures r <= MAX_CAPACITY
    ensures elemSize > 0 ==> LayoutFits(r, elemSize)
    ensures elemSize > 0 && r < MAX_CAPACITY ==> !LayoutFits(r + 1, elemSize)
  {
    var q := ISIZE_MAX / Max(elemSize, 1);
    DivBound(Min(q, MAX_CAPACITY), ISIZE_MAX, Max(elemSize, 1));
    DivBound(q + 1, ISIZE_MAX, Max(elemSize, 1));
    Min(q, MAX_CAPACITY)
  }

  /** The most elements a buffer of this element size can ever hold. */
  function ElementLimit(elemSize: nat): nat {
    if elemSize == 0 then USIZE_MAX else MaxElements(elemSize)
  }

  /** `cap.checked_add(additional).unwrap_or(MAX_CAPACITY)`. */
  function RequiredCap(cap: nat, additional: nat): (r: nat)
    ensures r <= cap + additional
    ensures cap + additional <= USIZE_MAX ==> r == cap + additional
    ensures r == cap + additional || r == MAX_CAPACITY
  {
    if cap + additional <= USIZE_MAX then cap + additional else MAX_CAPACITY
  }

  /** The request `reserve` works with: the checked sum, limited to what the
      element size allows. */
  function CappedRequired(cap: nat, additional: nat, elemSize: nat): (r: nat)
    ensures r <= MaxElements(elemSize) && r <= cap + additional
    ensures elemSize > 0 ==> LayoutFits(r, elemSize)
  {
    Min(RequiredCap(cap, additional), MaxElements(elemSize))
  }

  /** The capacity `reserve` asks `grow_to` for once it has decided to grow. */
  function GrowthRequest(cap: nat, capped: nat, elemSize: nat): (r: nat)
    ensures cap == 0 ==> IsPowerOfTwo(r) && r >= MIN_NON_ZERO_CAP && r >= capped
    ensures cap > 0 ==> r <= MAX_CAPACITY
  {
    if cap == 0 then NextPowerOfTwo(Max(capped, MIN_NON_ZERO_CAP))
    else CalculateGrowth(cap, capped, elemSize)
  }

  /** `Layout::array::<T>(n)` succeeds. */
  predicate LayoutFits(n: nat, elemSize: nat) {
    n * elemSize <= ISIZE_MAX
  }

  /** The capacity `grow_to(newCap)` ends with; when the layout does not fit it
      falls back to MaxElements, or stays put if it is already there. */
  function GrowToResult(cap: nat, newCap: nat, elemSize: nat): (r: nat)
    ensures elemSize > 0 ==> LayoutFits(r, elemSize) || r == cap
    ensures elemSize > 0 && cap < newCap && cap < MaxElements(elemSize) ==> cap < r
    ensures r == newCap || r == cap || r == MaxElements(elemSize)
  {
    if elemSize == 0 then newCap
    else if !LayoutFits(newCap, elemSize) then
      (if cap >= MaxElements(elemSize) then cap else MaxElements(elemSize))
    else newCap
  }

  /** The capacity `reserve(additional)` leaves (src/raw_vec.rs:116-151). */
  function ReservedCap(cap: nat, additional: nat, elemSize: nat): (r: nat)
    ensures elemSize == 0 ==> r == USIZE_MAX
    ensures elemSize > 0 ==> cap <= r && (LayoutFits(r, elemSize) || r == cap)
    ensures elemSize > 0 && CappedRequired(cap, additional, elemSize) <= cap ==> r == cap
  {
    var capped := CappedRequired(cap, additional, elemSize);
    if elemSize == 0 then USIZE_MAX
    else if capped <= cap then cap
    else GrowToResult(cap, GrowthRequest(cap, capped, elemSize), elemSize)
  }

  /** grow_to's `debug_assert!(new_cap > self.cap)` holds for this reserve. */
  predicate GrowthAdvances(cap: nat, additional: nat, elemSize: nat) {
    var capped := CappedRequired(cap, additional, elemSize);
    elemSize == 0 || capped <= cap || GrowthRequest(cap, capped, elemSize) > cap
  }

  /** A push at length `len` finds a free slot, directly or after its reserve of
      max(1, cap / 2) (src/lib.rs:48-54). */
  predicate PushFits(len: nat, cap: nat, elemSize: nat) {
    var additional := Max(1, cap / 2);
    len < cap || (GrowthAdvances(cap, additional, elemSize) && ReservedCap(cap, additional, elemSize) > cap)
  }

  /** Capacities from which no reserve can stall: every element size except
      medium at capacity 1 and large at capacity 1 to 3. */
  predicate GrowthSafe(cap: nat, elemSize: nat) {
    elemSize <= SMALL_ELEM || cap == 0 || cap >= MaxElements(elemSize)
    || (elemSize <= MEDIUM_ELEM && cap >= 2) || cap >= 4
  }

  /** The capacity `with_capacity(n)` allocates (src/raw_vec.rs:77-110). */
  function InitialCap(capacity: nat, elemSize: nat): (c: nat)
    ensures elemSize > 0 && capacity > 0 ==> c == capacity
  {
    if elemSize == 0 then USIZE_MAX
    else if capacity == 0 then MIN_NON_ZERO_CAP
    else capacity
  }

  // ---------------------------------------------------------------------------
  // Shrinking

  /** `should_shrink`, with the float ratios written as exact integer
      comparisons: usage below 25% is 4 * len < cap, waste above 25% is
      4 * (cap - len) > cap (src/raw_vec.rs:217-238). */
  predicate ShouldShrink(cap: nat, len: nat, elemSize: nat)
    requires len <= cap
    ensures ShouldShrink(cap, len, elemSize) ==> elemSize != 0 && len < cap
    ensures elemSize != 0 && 4 * len < cap ==> ShouldShrink(cap, len, elemSize)
  {
    elemSize != 0 &&
    (((cap - len) * elemSize > MAX_EXCESS_CAPACITY && 4 * (cap - len) > cap) || 4 * len < cap)
  }

  /** The capacity `shrink_to_fit(len)` leaves (src/raw_vec.rs:240-278). */
  function ShrunkCap(cap: nat, len: nat, elemSize: nat): (r: nat)
    ensures elemSize > 0 && len <= cap ==> len <= r <= cap
    ensures elemSize > 0 && r != cap ==> len < cap && IsPowerOfTwo(r) && MIN_NON_ZERO_CAP <= r < cap && ShouldShrink(cap, len, elemSize)
  {
    if elemSize == 0 then USIZE_MAX
    else if len >= cap - cap / 4 then cap
    else if ShouldShrink(cap, len, elemSize) && Max(NextPowerOfTwo(len), MIN_NON_ZERO_CAP) < cap
    then Max(NextPowerOfTwo(len), MIN_NON_ZERO_CAP)
    else cap
  }

  // ---------------------------------------------------------------------------
  // Properties of the growth rule

  /** Small elements: the result covers both doubling and the request, exceeds
      that by at most 12.5%, never passes MAX_CAPACITY, and when it differs from
      the plain target it is the rounded power of two whose waste is under
      16 KiB. */
  lemma SmallGrowth(cap: nat, required: nat, elemSize: nat)
    requires elemSize <= SMALL_ELEM && cap < required <= MAX_CAPACITY
    ensures var r, n := CalculateGrowth(cap, required, elemSize), Max(2 * cap, required);
      && required <= r <= MAX_CAPACITY
      && Min(2 * cap, MAX_CAPACITY) <= r
      && r <= n + n / 8
      && (r == Min(n, MAX_CAPACITY)
          || (IsPowerOfTwo(r) && n < r && (r - n) * elemSize <= ROUNDING_WASTE_LIMIT))
  {
    var n := Max(2 * cap, required);
    assert SaturatingAdd(cap, cap) == 2 * cap;
    NextPowerOfTwoIsLeast(n);
    MaxCapacityIsPowerOfTwo();
  }

  /** Medium elements grow by half, but never past the request, and are never
      rounded. */
  lemma MediumGrowth(cap: nat, required: nat, elemSize: nat)
    requires SMALL_ELEM < elemSize <= MEDIUM_ELEM
    requires required <= MAX_CAPACITY && cap + cap / 2 <= USIZE_MAX
    ensures CalculateGrowth(cap, required, elemSize) == Min(cap + cap / 2, required)
  {
  }

  /** Large elements grow by a quarter, but never past the request, and are
      never rounded. */
  lemma LargeGrowth(cap: nat, required: nat, elemSize: nat)
    requires MEDIUM_ELEM < elemSize
    requires required <= MAX_CAPACITY && cap + cap / 4 <= USIZE_MAX
    ensures CalculateGrowth(cap, required, elemSize) == Min(cap + cap / 4, required)
  {
  }

  lemma SmallMaxElements(elemSize: nat)
    requires 1 <= elemSize <= SMALL_ELEM
    ensures MaxElements(elemSize) == MAX_CAPACITY
  {
    MulMonotone(elemSize, SMALL_ELEM, MAX_CAPACITY);
    DivBound(MAX_CAPACITY, ISIZE_MAX, elemSize);
  }

  lemma FitsBelowMaxElements(n: nat, elemSize: nat)
    requires elemSize > 0 && n <= MaxElements(elemSize)
    ensures LayoutFits(n, elemSize)
  {
    DivBound(n, ISIZE_MAX, elemSize);
  }

  /** grow_to never receives a request above MAX_CAPACITY from reserve. */
  lemma GrowthRequestBounded(cap: nat, capped: nat, elemSize: nat)
    requires capped <= MAX_CAPACITY
    ensures GrowthRequest(cap, capped, elemSize) <= MAX_CAPACITY
  {
    if cap == 0 {
      MaxCapacityIsPowerOfTwo();
      NextPowerOfTwoIsLeast(Max(capped, MIN_NON_ZERO_CAP));
    }
  }

  /** grow_to asked for more than it has lands strictly above the old capacity
      and within the platform limit, even through its layout fall-back. */
  lemma GrowToAdvances(cap: nat, newCap: nat, capped: nat, elemSize: nat)
    requires elemSize > 0 && cap < newCap <= MAX_CAPACITY && cap < capped <= MaxElements(elemSize)
    ensures cap < GrowToResult(cap, newCap, elemSize) <= MAX_CAPACITY
  {
  }

  /** reserve is a no-op exactly when the capped request is already covered;
      otherwise (when grow_to's assertion holds) capacity strictly increases and
      stays within the platform limit. */
  lemma ReserveChange(cap: nat, additional: nat, elemSize: nat)
    requires elemSize > 0 && GrowthAdvances(cap, additional, elemSize)
    ensures var capped, r := CappedRequired(cap, additional, elemSize), ReservedCap(cap, additional, elemSize);
      && (capped <= cap ==> r == cap)
      && (capped > cap ==> cap < r <= MAX_CAPACITY)
  {
    var capped := CappedRequired(cap, additional, elemSize);
    if capped > cap {
      var req := GrowthRequest(cap, capped, elemSize);
      assert ReservedCap(cap, additional, elemSize) == GrowToResult(cap, req, elemSize);
      GrowthRequestBounded(cap, capped, elemSize);
      GrowToAdvances(cap, req, capped, elemSize);
    }
  }

  /** Growing an empty buffer gives the power of two covering max(request, 8),
      whatever the element size, when that allocation's layout fits. */
  lemma ReserveFromEmpty(additional: nat, elemSize: nat)
    requires elemSize > 0 && CappedRequired(0, additional, elemSize) > 0
    requires LayoutFits(NextPowerOfTwo(Max(CappedRequired(0, additional, elemSize), MIN_NON_ZERO_CAP)), elemSize)
    ensures var r := ReservedCap(0, additional, elemSize);
      && r == NextPowerOfTwo(Max(CappedRequired(0, additional, elemSize), MIN_NON_ZERO_CAP))
      && IsPowerOfTwo(r) && r >= MIN_NON_ZERO_CAP && r >= CappedRequired(0, additional, elemSize)
  {
    NextPowerOfTwoIsLeast(Max(CappedRequired(0, additional, elemSize), MIN_NON_ZERO_CAP));
  }

  /** The first push of a small element into an empty buffer allocates the
      minimum non-zero capacity. */
  lemma FirstPushAllocatesMinimum(elemSize: nat)
    requires 1 <= elemSize <= SMALL_ELEM
    ensures ReservedCap(0, 1, elemSize) == MIN_NON_ZERO_CAP && PushFits(0, 0, elemSize)
  {
    SmallMaxElements(elemSize);
    assert CappedRequired(0, 1, elemSize) == 1;
    assert NextPowerOfTwo(MIN_NON_ZERO_CAP) == MIN_NON_ZERO_CAP;
    MulMonotone(elemSize, SMALL_ELEM, MIN_NON_ZERO_CAP);
    ReserveFromEmpty(1, elemSize);
  }

  /** For small elements reserve(k) leaves room for the whole (capped) request;
      so cap grows by at least k while cap + k stays within MAX_CAPACITY. */
  lemma SmallReserveMeetsRequest(cap: nat, additional: nat, elemSize: nat)
    requires 1 <= elemSize <= SMALL_ELEM
    ensures var r := ReservedCap(cap, additional, elemSize);
      && r >= cap && r >= CappedRequired(cap, additional, elemSize)
      && (cap + additional <= MAX_CAPACITY ==> r >= cap + additional)
  {
    var capped := CappedRequired(cap, additional, elemSize);
    SmallMaxElements(elemSize);
    if capped > cap {
      var req := GrowthRequest(cap, capped, elemSize);
      if cap == 0 {
        NextPowerOfTwoIsLeast(Max(capped, MIN_NON_ZERO_CAP));
      } else {
        SmallGrowth(cap, capped, elemSize);
      }
      GrowthRequestBounded(cap, capped, elemSize);
      FitsBelowMaxElements(req, elemSize);
    }
  }

  /** A u8 buffer reserving 1000 from empty gets 1024 slots, and so does a buffer
      of 1 KiB elements (no rounding to 2048). */
  lemma ReserveThousandFromEmpty()
    ensures ReservedCap(0, 1000, 1) == 1024
    ensures ReservedCap(0, 1000, 1024) == 1024
  {
    SmallMaxElements(1);
    assert NextPowerOfTwo(1000) == 1024;
    FitsBelowMaxElements(1024, 1);
    DivBound(1024, ISIZE_MAX, 1024);
  }

  /** Doubling a power-of-two capacity already covers any request up to 2 * cap,
      and rounding leaves the doubled power of two as it is. */
  lemma SmallGrowthOfPowerOfTwo(cap: nat, required: nat, elemSize: nat)
    requires elemSize <= SMALL_ELEM && IsPowerOfTwo(cap) && cap < MAX_CAPACITY
    requires cap < required <= 2 * cap
    ensures CalculateGrowth(cap, required, elemSize) == 2 * cap
  {
    MaxCapacityIsPowerOfTwo();
    DoubleBelowPowerOfTwo(cap, MAX_CAPACITY);
    DoublePowerOfTwo(cap);
    NextPowerOfTwoFixesPowers(2 * cap);
    assert SaturatingAdd(cap, cap) == 2 * cap;
  }

  /** A push on a full buffer whose capacity is a power of two below the limit
      exactly doubles it for small elements: every growth step is within
      [1.2x, 2x] of the previous capacity. */
  lemma PushGrowthDoubles(cap: nat, elemSize: nat)
    requires 1 <= elemSize <= SMALL_ELEM && IsPowerOfTwo(cap) && cap < MAX_CAPACITY
    ensures var r := ReservedCap(cap, Max(1, cap / 2), elemSize);
      && r == 2 * cap && 5 * r >= 6 * cap && r <= 2 * cap
      && IsPowerOfTwo(r) && PushFits(cap, cap, elemSize)
  {
    var additional := Max(1, cap / 2);
    assert 1 <= additional <= cap;
    MaxCapacityIsPowerOfTwo();
    DoubleBelowPowerOfTwo(cap, MAX_CAPACITY);
    DoublePowerOfTwo(cap);
    SmallMaxElements(elemSize);
    assert RequiredCap(cap, additional) == cap + additional;
    var capped := CappedRequired(cap, additional, elemSize);
    assert capped == cap + additional;
    SmallGrowthOfPowerOfTwo(cap, capped, elemSize);
    var req := GrowthRequest(cap, capped, elemSize);
    assert req == 2 * cap;
    FitsBelowMaxElements(req, elemSize);
    assert GrowToResult(cap, req, elemSize) == 2 * cap;
    assert ReservedCap(cap, additional, elemSize) == 2 * cap;
    assert GrowthAdvances(cap, additional, elemSize);
  }

  // ---------------------------------------------------------------------------
  // When growth cannot stall

  lemma GrowthSafeAdvances(cap: nat, additional: nat, elemSize: nat)
    requires GrowthSafe(cap, elemSize)
    ensures GrowthAdvances(cap, additional, elemSize)
  {
    var capped := CappedRequired(cap, additional, elemSize);
    if elemSize > 0 && capped > cap && cap > 0 {
      if elemSize <= SMALL_ELEM {
        SmallGrowth(cap, capped, elemSize);
      } else if elemSize <= MEDIUM_ELEM {
        MediumGrowth(cap, capped, elemSize);
      } else {
        LargeGrowth(cap, capped, elemSize);
      }
    }
  }

  lemma GrowthSafeAfterReserve(cap: nat, additional: nat, elemSize: nat)
    requires GrowthSafe(cap, elemSize)
    ensures GrowthSafe(ReservedCap(cap, additional, elemSize), elemSize)
  {
    var capped := CappedRequired(cap, additional, elemSize);
    if elemSize > SMALL_ELEM && capped > cap {
      GrowthSafeAdvances(cap, additional, elemSize);
      ReserveChange(cap, additional, elemSize);
      if cap == 0 {
        var req := GrowthRequest(cap, capped, elemSize);
        NextPowerOfTwoIsLeast(Max(capped, MIN_NON_ZERO_CAP));
        assert req >= 8;
      }
    }
  }

  lemma GrowthSafeAfterShrink(cap: nat, len: nat, elemSize: nat)
    requires GrowthSafe(cap, elemSize)
    ensures GrowthSafe(ShrunkCap(cap, len, elemSize), elemSize)
  {
  }

  /** From a growth-safe capacity a push always finds room, up to the element
      limit. */
  lemma GrowthSafePushFits(len: nat, cap: nat, elemSize: nat)
    requires GrowthSafe(cap, elemSize) && len <= cap && len < ElementLimit(elemSize)
    ensures PushFits(len, cap, elemSize)
  {
    if len == cap {
      var additional := Max(1, cap / 2);
      GrowthSafeAdvances(cap, additional, elemSize);
      if elemSize > 0 {
        assert CappedRequired(cap, additional, elemSize) > cap;
        ReserveChange(cap, additional, elemSize);
      }
    }
  }

  // ---------------------------------------------------------------------------
  // Properties of the shrink rule

  /** shrink_to_fit never grows the buffer and never cuts below len; when it
      acts it lands on max(next power of two of len, 8), and it is sure to act
      when usage is under 25% of a capacity above the floor of 8. */
  lemma ShrinkBounds(cap: nat, len: nat, elemSize: nat)
    requires elemSize > 0 && len <= cap
    ensures var r := ShrunkCap(cap, len, elemSize);
      && len <= r <= cap
      && (r != cap ==> len < cap - cap / 4 && ShouldShrink(cap, len, elemSize)
                       && r == Max(NextPowerOfTwo(len), MIN_NON_ZERO_CAP) && IsPowerOfTwo(r))
      && (4 * len < cap && cap > MIN_NON_ZERO_CAP ==> r < cap)
  {
    NextPowerOfTwoIsLeast(len);
    assert IsPowerOfTwo(MIN_NON_ZERO_CAP);
  }

  /** Shrinking 1024 slots of i32 to 128 used lands on 128; at 90% usage it
      does nothing. */
  lemma ShrinkExamples()
    ensures ShrunkCap(1024, 128, 4) == 128
    ensures ShrunkCap(128, 115, 4) == 128
  {
    assert NextPowerOfTwo(128) == 128;
  }

  /** 2048 slots of 1 KiB elements with 512 used shrink (1.5 MiB wasted) to
      512, and do not shrink again at one below capacity. */
  lemma ShrinkMemoryThreshold()
    ensures ShrunkCap(2048, 512, 1024) == 512
    ensures ShrunkCap(512, 511, 1024) == 512
  {
    assert NextPowerOfTwo(512) == 512;
  }

  /** A zero-sized element type always reports the full usize range. */
  lemma ZeroSizedIsUnbounded(cap: nat, n: nat)
    ensures ReservedCap(cap, n, 0) == USIZE_MAX
    ensures ShrunkCap(cap, n, 0) == USIZE_MAX
    ensures InitialCap(n, 0) == USIZE_MAX
  {
  }

  // ---------------------------------------------------------------------------
  // Where the as-written rule misbehaves

  /** As written, medium elements at capacity 1 and large elements at capacity 1
      to 3 ask grow_to for no more than they have: push's reserve of
      max(1, cap / 2) then stalls and grow_to's assertion fails. */
  lemma GrowthStallsAtSmallCapacity()
    ensures CalculateGrowth(1, 2, 512) == 1 && !GrowthAdvances(1, 1, 512) && !PushFits(1, 1, 512)
    ensures CalculateGrowth(3, 4, 2048) == 3 && !GrowthAdvances(3, 1, 2048) && !PushFits(3, 3, 2048)
  {
    DivBound(2, ISIZE_MAX, 512);
    DivBound(4, ISIZE_MAX, 2048);
  }

  /** Growth for small elements can exceed double the old capacity when the
      capacity is not a power of two: 15 slots grow to 32 on a push. */
  lemma GrowthAboveDoubleFromFifteen()
    ensures ReservedCap(15, Max(1, 15 / 2), 4) == 32 && 32 > 2 * 15
  {
    SmallMaxElements(4);
    assert NextPowerOfTwo(30) == 32;
    FitsBelowMaxElements(32, 4);
  }

  /** For medium elements reserve can stay below the capacity it was asked to
      reach: 4 slots asked to reach 8 stop at 6. */
  lemma MediumReserveFallsShort()
    ensures ReservedCap(4, 4, 512) == 6
  {
    DivBound(8, ISIZE_MAX, 512);
    FitsBelowMaxElements(6, 512);
  }

  /** Small elements never fall short: a reserve up to an end position within
      MAX_CAPACITY passes grow_to's assertion and reaches that position, which
      is what `shift_right` relies on. */
  lemma SmallReserveReachesEnd(cap: nat, newEnd: nat, elemSize: nat)
    requires 1 <= elemSize <= SMALL_ELEM && cap < newEnd <= MAX_CAPACITY
    ensures GrowthAdvances(cap, newEnd - cap, elemSize)
    ensures ReservedCap(cap, newEnd - cap, elemSize) >= newEnd
  {
    GrowthSafeAdvances(cap, newEnd - cap, elemSize);
    SmallReserveMeetsRequest(cap, newEnd - cap, elemSize);
  }

  /** The evidently intended medium/large growth: grow by the size tier's
      fraction, never past the request, but by at least one slot. */
  function CalculateGrowthAtLeastOne(cap: nat, required: nat, elemSize: nat): (r: nat)
    requires cap < required
    ensures cap < r
  {
    Max(CalculateGrowth(cap, required, elemSize), cap + 1)
  }

  /** With the corrected rule reserve always advances for every element size,
      stays within the request for medium and large elements, and agrees with
      the as-written rule wherever that one already advanced. */
  lemma CorrectedGrowthAdvances(cap: nat, required: nat, elemSize: nat)
    requires 0 < cap < required <= MAX_CAPACITY
    ensures var r := CalculateGrowthAtLeastOne(cap, required, elemSize);
      && cap < r <= MAX_CAPACITY
      && (elemSize > SMALL_ELEM ==> r <= required)
      && (CalculateGrowth(cap, required, elemSize) > cap ==> r == CalculateGrowth(cap, required, elemSize))
  {
  }
}

=== FILE: iter.dfy ===
/** The cursor iterators of the growable array (src/iter.rs). Each is a window
    [start, end) over a raw buffer: `next` takes the slot at the front and
    `next_back` the slot at the back, until the window is empty.

    `Iter` and `IterMut` borrow the vector's buffer, `IntoIter` owns it, and
    `Drain` borrows it mutably to remove a range, compacting the tail when it
    is dropped. A mutable reference is modelled as the index of the slot it
    designates. Each iterator records, as ghost state, the window it was made
    over, so that the slots already passed can be named. */
module Iterators {
  import opened Outcomes
  import opened CapacityPolicy
  import opened RawBuffer

  ghost predicate Between(lo: nat, k: nat, hi: nat) {
    lo <= k < hi
  }

  /** The slot indices lo, ..., hi - 1. */
  ghost function Range(lo: nat, hi: nat): set<nat> {
    set k: nat | lo <= k < hi && Between(lo, k, hi)
  }

  /** The slots a window narrowed from [lo, hi) to [start, end) has passed. */
  ghost function Passed(lo: nat, start: nat, end: nat, hi: nat): set<nat> {
    Range(lo, start) + Range(end, hi)
  }

  /** Moving the front cursor past `start` passes exactly that one more slot. */
  lemma PassFront(lo: nat, start: nat, end: nat, hi: nat)
    requires lo <= start < end <= hi
    ensures start !in Passed(lo, start, end, hi)
    ensures Passed(lo, start + 1, end, hi) == Passed(lo, start, end, hi) + {start}
  {
    assert Range(lo, start + 1) == Range(lo, start) + {start};
  }

  /** Moving the back cursor below `end` passes exactly slot end - 1. */
  lemma PassBack(lo: nat, start: nat, end: nat, hi: nat)
    requires lo <= start < end <= hi
    ensures end - 1 !in Passed(lo, start, end, hi)
    ensures Passed(lo, start, end - 1, hi) == Passed(lo, start, end, hi) + {end - 1}
  {
    assert Range(end - 1, hi) == Range(end, hi) + {end - 1};
  }

  /** The slot indices of a window, front first. */
  ghost function Places(start: nat, end: nat): (r: seq<nat>)
    requires start <= end
  {
    seq(end - start, i requires 0 <= i < end - start => start + i)
  }

  // ---------------------------------------------------------------------------

  /** `Iter`: shared references to the slots of a window, front or back. */
  class Iter<T(0)> {
    const buf: RawVec<T>
    var start: nat
    var end: nat
    ghost const lo: nat
    ghost const hi: nat

    ghost predicate Valid()
      reads this, buf
    {
      buf.Valid() && lo <= start <= end <= hi <= buf.cap
    }

    /** The items still to come, front first. */
    ghost function Remaining(): seq<T>
      reads this, buf, buf.slots
      requires Valid()
    {
      buf.slots[start..end]
    }

    ghost function Yielded(): set<nat>
      reads this
    {
      Passed(lo, start, end, hi)
    }

    /** `Iter::new`: a window over [start, end) of the buffer. */
    constructor (buf: RawVec<T>, start: nat, end: nat)
      requires buf.Valid() && start <= end <= buf.cap
      ensures Valid() && this.buf == buf && this.start == start && this.end == end
      ensures lo == start && hi == end && Yielded() == {}
    {
      this.buf := buf;
      this.start := start;
      this.end := end;
      lo, hi := start, end;
      new;
      assert Range(start, start) == {} && Range(end, end) == {};
    }

    /** `next`: None exactly when the window is empty (nothing changes);
        otherwise the item at the front, which no call has yielded before. */
    method Next() returns (r: Option<T>)
      requires Valid()
      modifies this`start
      ensures Valid()
      ensures r.None? <==> old(start) == end
      ensures r.None? ==> start == old(start)
      ensures r.Some? ==> r.value == buf.slots[old(start)] && start == old(start) + 1
      ensures r.Some? ==> old(start) !in old(Yielded()) && Yielded() == old(Yielded()) + {old(start)}
      ensures old(Remaining()) == (if r.Some? then [r.value] else []) + Remaining()
    {
      if start == end {
        return None;
      }
      PassFront(lo, start, end, hi);
      var item := buf.GetRef(start);
      start := start + 1;
      return Some(item);
    }

    /** `next_back`: None exactly when the window is empty (nothing changes);
        otherwise the item at the back, which no call has yielded before. */
    method NextBack() returns (r: Option<T>)
      requires Valid()
      modifies this`end
      ensures Valid()
      ensures r.None? <==> start == old(end)
      ensures r.None? ==> end == old(end)
      ensures r.Some? ==> end == old(end) - 1 && r.value == buf.slots[end]
      ensures r.Some? ==> end !in old(Yielded()) && Yielded() == old(Yielded()) + {end}
      ensures old(Remaining()) == Remaining() + (if r.Some? then [r.value] else [])
    {
      if start == end {
        return None;
      }
      PassBack(lo, start, end, hi);
      end := end - 1;
      var item := buf.GetRef(end);
      return Some(item);
    }

    /** `size_hint`: exactly the number of items still to come, as both bounds. */
    function SizeHint(): (hint: (nat, Option<nat>))
      reads this, buf, buf.slots
      requires Valid()
      ensures hint == (|Remaining()|, Some(|Remaining()|))
    {
      (end - start, Some(end - start))
    }
  }

  // ---------------------------------------------------------------------------

  /** `IterMut`: mutable references to the slots of a window, each modelled as
      the index of the slot it designates. */
  class IterMut<T(0)> {
    const buf: RawVec<T>
    var start: nat
    var end: nat
    ghost const lo: nat
    ghost const hi: nat

    ghost predicate Valid()
      reads this, buf
    {
      buf.Valid() && lo <= start <= end <= hi <= buf.cap
    }

    /** The slots still to come, front first. */
    ghost function Remaining(): seq<nat>
      reads this
      requires start <= end
    {
      Places(start, end)
    }

    ghost function Yielded(): set<nat>
      reads this
    {
      Passed(lo, start, end, hi)
    }

    /** `IterMut::new`: a window over [start, end) of the buffer. */
    constructor (buf: RawVec<T>, start: nat, end: nat)
      requires buf.Valid() && start <= end <= buf.cap
      ensures Valid() && this.buf == buf && this.start == start && this.end == end
      ensures lo == start && hi == end && Yielded() == {}
    {
      this.buf := buf;
      this.start := start;
      this.end := end;
      lo, hi := start, end;
      new;
      assert Range(start, start) == {} && Range(end, end) == {};
    }

    /** `next`: None exactly when the window is empty (nothing changes);
        otherwise the front slot, which no call has handed out before. */
    method Next() returns (r: Option<nat>)
      requires Valid()
      modifies this`start
      ensures Valid()
      ensures r.None? <==> old(start) == end
      ensures r.None? ==> start == old(start)
      ensures r.Some? ==> r.value == old(start) && start == old(start) + 1 && r.value < buf.slots.Length
      ensures r.Some? ==> old(start) !in old(Yielded()) && Yielded() == old(Yielded()) + {old(start)}
      ensures old(Remaining()) == (if r.Some? then [r.value] else []) + Remaining()
    {
      if start == end {
        return None;
      }
      PassFront(lo, start, end, hi);
      var place := start;
      start := start + 1;
      return Some(place);
    }

    /** `next_back`: None exactly when the window is empty (nothing changes);
        otherwise the back slot, which no call has handed out before. */
    method NextBack() returns (r: Option<nat>)
      requires Valid()
      modifies this`end
      ensures Valid()
      ensures r.None? <==> start == old(end)
      ensures r.None? ==> end == old(end)
      ensures r.Some? ==> end == old(end) - 1 && r.value == end && r.value < buf.slots.Length
      ensures r.Some? ==> end !in old(Yielded()) && Yielded() == old(Yielded()) + {end}
      ensures old(Remaining()) == Remaining() + (if r.Some? then [r.value] else [])
    {
      if start == end {
        return None;
      }
      PassBack(lo, start, end, hi);
      end := end - 1;
      return Some(end);
    }

    /** `size_hint`: exactly the number of slots still to come, as both bounds. */
    function SizeHint(): (hint: (nat, Option<nat>))
      reads this
      requires start <= end
      ensures hint == (|Remaining()|, Some(|Remaining()|))
    {
      (end - start, Some(end - start))
    }
  }

  // ---------------------------------------------------------------------------

  /** `IntoIter`: the items of a window of an owned buffer, moved out one by
      one. */
  class IntoIter<T(0)> {
    const buf: RawVec<T>
    var start: nat
    var end: nat
    ghost const lo: nat
    ghost const hi: nat

    ghost predicate Valid()
      reads this, buf
    {
      buf.Valid() && lo <= start <= end <= hi <= buf.cap
    }

    /** The items still to come, front first. */
    ghost function Remaining(): seq<T>
      reads this, buf, buf.slots
      requires Valid()
    {
      buf.slots[start..end]
    }

    ghost function Yielded(): set<nat>
      reads this
    {
      Passed(lo, start, end, hi)
    }

    /** `IntoIter::new`: take ownership of the buffer, window [start, end). */
    constructor (buf: RawVec<T>, start: nat, end: nat)
      requires buf.Valid() && start <= end <= buf.cap
      ensures Valid() && this.buf == buf && this.start == start && this.end == end
      ensures lo == start && hi == end && Yielded() == {}
    {
      this.buf := buf;
      this.start := start;
      this.end := end;
      lo, hi := start, end;
      new;
      assert Range(start, start) == {} && Range(end, end) == {};
    }

    /** `next`: None exactly when the window is empty (nothing changes);
        otherwise the item at the front, moved out exactly once. */
    method Next() returns (r: Option<T>)
      requires Valid()
      modifies this`start
      ensures Valid()
      ensures r.None? <==> old(start) == end
      ensures r.None? ==> start == old(start)
      ensures r.Some? ==> r.value == buf.slots[old(start)] && start == old(start) + 1
      ensures r.Some? ==> old(start) !in old(Yielded()) && Yielded() == old(Yielded()) + {old(start)}
      ensures old(Remaining()) == (if r.Some? then [r.value] else []) + Remaining()
    {
      if start == end {
        return None;
      }
      PassFront(lo, start, end, hi);
      var item := buf.ReadAt(start);
      start := start + 1;
      return Some(item);
    }

    /** `next_back`: None exactly when the window is empty (nothing changes);
        otherwise the item at the back, moved out exactly once. */
    method NextBack() returns (r: Option<T>)
      requires Valid()
      modifies this`end
      ensures Valid()
      ensures r.None? <==> start == old(end)
      ensures r.None? ==> end == old(end)
      ensures r.Some? ==> end == old(end) - 1 && r.value == buf.slots[end]
      ensures r.Some? ==> end !in old(Yielded()) && Yielded() == old(Yielded()) + {end}
      ensures old(Remaining()) == Remaining() + (if r.Some? then [r.value] else [])
    {
      if start == end {
        return None;
      }
      PassBack(lo, start, end, hi);
      end := end - 1;
      var item := buf.ReadAt(end);
      return Some(item);
    }

    /** `size_hint`: exactly the number of items still to come, as both bounds. */
    function SizeHint(): (hint: (nat, Option<nat>))
      reads this, buf, buf.slots
      requires Valid()
      ensures hint == (|Remaining()|, Some(|Remaining()|))
    {
      (end - start, Some(end - start))
    }
  }

  // ---------------------------------------------------------------------------

  /** `Drain`: moves the items of the range [originalStart, originalEnd) out of
      a vector whose length has already been cut to len - (originalEnd -
      originalStart); its drop (`Finish`) releases what was not taken and moves
      the tail [end, len) down. */
  class Drain<T(0)> {
    const buf: RawVec<T>
    var start: nat
    var end: nat
    /** The vector's length before the drain. */
    const len: nat
    const originalStart: nat
    /** The end of the drained range; read only by the corrected drop. */
    const originalEnd: nat
    /** The slots whose items the drop released without yielding them. */
    ghost var released: set<nat>
    /** The drop has run. */
    ghost var finished: bool

    ghost predicate Valid()
      reads this, buf
    {
      buf.Valid() && originalStart <= start <= end <= originalEnd <= len <= buf.cap
      && (!finished ==> released == {})
    }

    /** The items still to come, front first. */
    ghost function Remaining(): seq<T>
      reads this, buf, buf.slots
      requires Valid()
    {
      buf.slots[start..end]
    }

    ghost function Yielded(): set<nat>
      reads this
    {
      Passed(originalStart, start, end, originalEnd)
    }

    /** `Drain::new`: drain [start, end) of a vector of length `len`. */
    constructor (buf: RawVec<T>, start: nat, end: nat, len: nat)
      requires buf.Valid() && start <= end <= len <= buf.cap
      ensures Valid() && !finished && this.buf == buf && this.len == len
      ensures this.start == start && this.end == end && originalStart == start && originalEnd == end
      ensures Yielded() == {}
    {
      this.buf := buf;
      this.start := start;
      this.end := end;
      this.len := len;
      originalStart := start;
      originalEnd := end;
      released := {};
      finished := false;
      new;
      assert Range(start, start) == {} && Range(end, end) == {};
    }

    /** `next`: None exactly when the window is empty (nothing changes);
        otherwise the item at the front, moved out exactly once. */
    method Next() returns (r: Option<T>)
      requires Valid() && !finished
      modifies this`start
      ensures Valid()
      ensures r.None? <==> old(start) == end
      ensures r.None? ==> start == old(start)
      ensures r.Some? ==> r.value == buf.slots[old(start)] && start == old(start) + 1
      ensures r.Some? ==> old(start) !in old(Yielded()) && Yielded() == old(Yielded()) + {old(start)}
      ensures old(Remaining()) == (if r.Some? then [r.value] else []) + Remaining()
    {
      if start == end {
        return None;
      }
      PassFront(originalStart, start, end, originalEnd);
      var item := buf.ReadAt(start);
      start := start + 1;
      return Some(item);
    }

    /** `next_back`: None exactly when the window is empty (nothing changes);
        otherwise the item at the back, moved out exactly once. */
    method NextBack() returns (r: Option<T>)
      requires Valid() && !finished
      modifies this`end
      ensures Valid()
      ensures r.None? <==> start == old(end)
      ensures r.None? ==> end == old(end)
      ensures r.Some? ==> end == old(end) - 1 && r.value == buf.slots[end]
      ensures r.Some? ==> end !in old(Yielded()) && Yielded() == old(Yielded()) + {end}
      ensures old(Remaining()) == Remaining() + (if r.Some? then [r.value] else [])
    {
      if start == end {
        return None;
      }
      PassBack(originalStart, start, end, originalEnd);
      end := end - 1;
      var item := buf.ReadAt(end);
      return Some(item);
    }

    /** `size_hint`: exactly the number of items still to come, as both bounds. */
    function SizeHint(): (hint: (nat, Option<nat>))
      reads this, buf, buf.slots
      requires Valid()
      ensures hint == (|Remaining()|, Some(|Remaining()|))
    {
      (end - start, Some(end - start))
    }

    /** The first half of the drop: release the items of [start, end) that
        were not yielded. Afterwards every slot of the drained range was either
        yielded or released, and not both. */
    method ReleaseRest()
      requires Valid() && !finished
      modifies this`start, this`released, this`finished
      ensures Valid() && finished && start == end && end == old(end)
      ensures released == Range(old(start), end)
      ensures old(Yielded()) !! released && old(Yielded()) + released == Range(originalStart, originalEnd)
    {
      ghost var relinquished: set<nat> := {};
      while start < end
        invariant Valid() && old(start) <= start <= end
        invariant relinquished == Range(old(start), start)
        decreases end - start
      {
        assert Range(old(start), start + 1) == relinquished + {start};
        relinquished := relinquished + {start};
        start := start + 1;
      }
      assert old(Yielded()) + relinquished == Range(originalStart, originalEnd);
      released, finished := relinquished, true;
    }

    /** `Drop for Drain`, as written: release the items not yielded, then
        move the len - end slots from `end` down by end - originalStart. After
        a `next_back` the cursor `end` is below the end of the drained range,
        so this moves already-yielded slots back into the vector. */
    method Finish()
      requires Valid() && !finished
      modifies this, buf.slots
      ensures Valid() && finished && start == end && end == old(end)
      ensures released == Range(old(start), end)
      ensures old(Yielded()) !! released && old(Yielded()) + released == Range(originalStart, originalEnd)
      ensures buf.slots[..] == Moved(old(buf.slots[..]), end, originalStart, len - end)
    {
      ReleaseRest();
      var tailRemaining := len - end;
      if tailRemaining > 0 {
        var shifted := buf.ShiftLeft(end, tailRemaining, end - originalStart);
      } else {
        MovedNothing(buf.slots[..], end, originalStart);
      }
    }

    /** The drop as evidently intended: the tail starts at the end of the
        drained range whatever the cursors did, so the vector keeps exactly
        the slots before and after the range. */
    method FinishCorrected()
      requires Valid() && !finished
      modifies this, buf.slots
      ensures Valid() && finished && start == end && end == old(end)
      ensures released == Range(old(start), end)
      ensures old(Yielded()) !! released && old(Yielded()) + released == Range(originalStart, originalEnd)
      ensures buf.slots[..originalStart + (len - originalEnd)]
              == old(buf.slots[..originalStart]) + old(buf.slots[originalEnd..len])
    {
      ghost var before := buf.slots[..];
      ReleaseRest();
      var tailRemaining := len - originalEnd;
      if tailRemaining > 0 {
        var shifted := buf.ShiftLeft(originalEnd, tailRemaining, originalEnd - originalStart);
      } else {
        MovedNothing(buf.slots[..], originalEnd, originalStart);
      }
      MovedLeftJoins(before, originalStart, originalEnd, len);
    }
  }
}

=== FILE: outcomes.dfy ===
/** Results shared by every layer of the growable array.

    The container never returns an error value: an operation either completes or
    panics. A panic is the end of the offending call, so the model returns it as a
    `Fatal` outcome that names the condition that failed, with the values the failed
    check compared. */
module Outcomes {

  datatype Option<+T> = None | Some(value: T)

  /** The always-on checks of the source, one constructor per message. */
  datatype Panic =
    | InsertionIndex(index: nat, len: nat)     // insert at an index above the length
    | RemovalIndex(index: nat, len: nat)       // remove at an index not below the length
    | IndexOutOfBounds(index: nat, len: nat)   // v[i] or &mut v[i] with i not below the length
    | DrainRangeInverted(start: nat, end: nat) // drain range whose start is past its end
    | DrainRangePastEnd(end: nat, len: nat)    // drain range ending past the length
    | ShiftPositionOverflow                    // shift_right's end position overflows usize
    | ShiftIndexUnderflow                      // shift_left would move a block below slot 0
    | LayoutOverflow                           // with_capacity's layout exceeds isize::MAX bytes

  datatype Outcome<+R> = Ok(value: R) | Fatal(panic: Panic)
}

=== FILE: properties.dfy ===
/** Properties of the growable array that span several calls: the stack law,
    insert/remove round trips, draining, the iteration order of the cursors,
    and how the capacity evolves over runs of pushes, truncations and clears.

    Each property is a method that builds its own vectors (of 4-byte elements,
    like i32) and states in its postcondition what the calls produce. */
module Properties {
  import opened Outcomes
  import opened CapacityPolicy
  import opened RawBuffer
  import opened Iterators
  import opened Container

  /** size_of::<i32>(). */
  const I32: nat := 4

  /** A vector of i32 holding `items`, built by pushing them in order. */
  method Build(items: seq<int>) returns (v: Vec<int>)
    requires |items| <= MAX_CAPACITY
    ensures fresh(v) && fresh(v.buf) && fresh(v.buf.slots) && v.Valid()
    ensures v.buf.elemSize == I32 && v.Contents() == items
  {
    v := new Vec.New(I32);
    SmallMaxElements(I32);
    for i := 0 to |items|
      invariant fresh(v) && fresh(v.buf) && fresh(v.buf.slots) && v.Valid()
      invariant v.buf.elemSize == I32 && v.Contents() == items[..i]
    {
      GrowthSafePushFits(v.len, v.buf.cap, I32);
      v.Push(items[i]);
      assert items[..i + 1] == items[..i] + [items[i]];
    }
    assert items[..|items|] == items;
  }

  /** A full forward pass of `iter()` yields the elements in order. */
  method CollectForward<T(0)>(v: Vec<T>) returns (s: seq<T>)
    requires v.Valid()
    ensures s == v.Contents()
  {
    var it := v.Iter();
    s := [];
    while true
      invariant it.Valid() && it.buf == v.buf && it.end == v.len
      invariant s == v.Contents()[..it.start]
      decreases it.end - it.start
    {
      var item := it.Next();
      if item.None? {
        break;
      }
      assert v.Contents()[..it.start] == v.Contents()[..it.start - 1] + [item.value];
      s := s + [item.value];
    }
  }

  /** The elements of `s`, last first. */
  ghost function LastFirst<T>(s: seq<T>): seq<T> {
    if s == [] then [] else LastFirst(s[1..]) + [s[0]]
  }

  /** Element i of the reversal is element |s| - 1 - i of the original. */
  lemma {:induction false} LastFirstAt<T>(s: seq<T>)
    ensures |LastFirst(s)| == |s|
    ensures forall i :: 0 <= i < |s| ==> LastFirst(s)[i] == s[|s| - 1 - i]
  {
    if s != [] {
      LastFirstAt(s[1..]);
    }
  }

  /** A full backward pass (`iter().rev()`) yields the elements last first. */
  method CollectBackward<T(0)>(v: Vec<T>) returns (s: seq<T>)
    requires v.Valid()
    ensures s == LastFirst(v.Contents())
  {
    var it := v.Iter();
    s := [];
    while true
      invariant it.Valid() && it.buf == v.buf && it.start == 0 && it.end <= v.len
      invariant s == LastFirst(v.Contents()[it.end..])
      decreases it.end - it.start
    {
      var item := it.NextBack();
      if item.None? {
        break;
      }
      assert v.Contents()[it.end..][1..] == v.Contents()[it.end + 1..];
      s := s + [item.value];
    }
    assert v.Contents()[0..] == v.Contents();
  }

  /** Pushing v0 .. vn-1 and popping n times gives them back last first; one
      more pop gives None. */
  method StackLaw(items: seq<int>) returns (popped: seq<int>, extra: Option<int>)
    requires |items| <= MAX_CAPACITY
    ensures |popped| == |items|
    ensures forall i :: 0 <= i < |items| ==> popped[i] == items[|items| - 1 - i]
    ensures extra == None
  {
    var v := Build(items);
    popped := [];
    while |popped| < |items|
      invariant v.Valid() && |popped| + v.len == |items| && v.Contents() == items[..v.len]
      invariant forall i :: 0 <= i < |popped| ==> popped[i] == items[|items| - 1 - i]
      decreases |items| - |popped|
    {
      var r := v.Pop();
      popped := popped + [r.value];
    }
    extra := v.Pop();
  }

  /** `insert` on a vector of i32 below the element limit: the growth it may
      need always succeeds. */
  method InsertSmall(v: Vec<int>, index: nat, item: int)
    requires v.Valid() && v.buf.elemSize == I32 && index <= v.len < MAX_CAPACITY
    modifies v, v.buf, v.buf.slots
    ensures v.Valid() && v.Contents() == old(v.Contents())[..index] + [item] + old(v.Contents())[index..]
    ensures v.buf.slots == old(v.buf.slots) || fresh(v.buf.slots)
  {
    SmallMaxElements(I32);
    GrowthSafePushFits(v.len, v.buf.cap, I32);
    var r := v.Insert(index, item);
  }

  /** insert(i, x) followed by remove(i) returns x and restores the elements. */
  method InsertThenRemove(items: seq<int>, index: nat, x: int) returns (removed: Outcome<int>, after: seq<int>)
    requires index <= |items| < MAX_CAPACITY
    ensures removed == Ok(x) && after == items
  {
    var v := Build(items);
    InsertSmall(v, index, x);
    ghost var grown := v.Contents();
    assert grown == items[..index] + [x] + items[index..];
    removed := v.Remove(index);
    assert grown[..index] == items[..index] && grown[index + 1..] == items[index..];
    after := CollectForward(v);
  }

  /** The insert/remove walk-through: three inserts give [1, 2, 3]; removing
      index 1 returns 2 and leaves [1, 3]. */
  method InsertRemoveWalkThrough() returns (built: seq<int>, removed: Outcome<int>, rest: seq<int>)
    ensures built == [1, 2, 3] && removed == Ok(2) && rest == [1, 3]
  {
    var v := new Vec.New(I32);
    InsertSmall(v, 0, 1);
    InsertSmall(v, 1, 3);
    InsertSmall(v, 1, 2);
    built := CollectForward(v);
    removed := v.Remove(1);
    rest := CollectForward(v);
  }

  /** On an empty vector insert(5, _) and remove(5) panic with the index and
      the length. */
  method OutOfRangePanics() returns (badInsert: Outcome<()>, badRemove: Outcome<int>)
    ensures badInsert == Fatal(InsertionIndex(5, 0)) && badRemove == Fatal(RemovalIndex(5, 0))
  {
    var empty := new Vec.New(I32);
    badInsert := empty.Insert(5, 10);
    badRemove := empty.Remove(5);
  }

  /** Indexing reads the element; assigning through `&mut v[i]` changes that
      element only; an index at the length panics. */
  method IndexWalkThrough() returns (first: Outcome<int>, second: Outcome<int>, outOfBounds: Outcome<int>)
    ensures first == Ok(1) && second == Ok(3) && outOfBounds == Fatal(IndexOutOfBounds(2, 2))
  {
    var v := Build([1, 2]);
    first := v.Index(0);
    var place := v.IndexMut(1);
    v.buf.WriteAt(place.value, 3);
    second := v.Index(1);
    outOfBounds := v.Index(2);
  }

  /** `v[index] = item`: panics when index >= len, otherwise replaces that
      element and leaves every other slot of the buffer as it was. */
  method AssignAt<T(0)>(v: Vec<T>, index: nat, item: T) returns (r: Outcome<()>)
    requires v.Valid()
    modifies v.buf.slots
    ensures v.Valid() && (r.Fatal? <==> index >= v.len)
    ensures r.Fatal? ==> r.panic == IndexOutOfBounds(index, v.len) && v.buf.slots[..] == old(v.buf.slots[..])
    ensures r.Ok? ==> v.buf.slots[..] == old(v.buf.slots[..])[index := item]
                      && v.Contents() == old(v.Contents())[index := item]
  {
    var place := v.IndexMut(index);
    if place.Fatal? {
      return Fatal(place.panic);
    }
    v.buf.WriteAt(place.value, item);
    return Ok(());
  }

  /** Runs a drain's `next` until it gives None: the items are the window,
      front first. */
  method CollectDrain<T(0)>(d: Iterators.Drain<T>) returns (items: seq<T>)
    requires d.Valid() && !d.finished
    modifies d`start
    ensures d.Valid() && !d.finished && d.start == d.end && d.end == old(d.end)
    ensures items == old(d.Remaining())
  {
    items := [];
    while true
      invariant d.Valid() && !d.finished && d.end == old(d.end) && old(d.start) <= d.start
      invariant items == d.buf.slots[old(d.start)..d.start]
      decreases d.end - d.start
    {
      var item := d.Next();
      if item.None? {
        break;
      }
      assert d.buf.slots[old(d.start)..d.start] == d.buf.slots[old(d.start)..d.start - 1] + [item.value];
      items := items + [item.value];
    }
  }

  /** Draining a..b with `next` only, then dropping the Drain, yields exactly
      the elements of the range and leaves those before and after it. */
  method DrainForward(items: seq<int>, a: nat, b: nat) returns (drained: seq<int>, rest: seq<int>)
    requires a <= b <= |items| <= MAX_CAPACITY
    ensures drained == items[a..b] && rest == items[..a] + items[b..]
  {
    var v := Build(items);
    var r := v.Drain(a, b);
    var d := r.value;
    drained := CollectDrain(d);
    ghost var before := v.buf.slots[..];
    d.Finish();
    MovedLeftJoins(before, a, b, |items|);
    assert before[..a] == items[..a] && before[b..|items|] == items[b..];
    rest := CollectForward(v);
  }

  /** Runs a drain's `next` k times: the items are the first k of the window,
      front first. */
  method TakeFront<T(0)>(d: Iterators.Drain<T>, k: nat) returns (items: seq<T>)
    requires d.Valid() && !d.finished && d.start + k <= d.end
    modifies d`start
    ensures d.Valid() && !d.finished && d.start == old(d.start) + k && d.end == old(d.end)
    ensures items == d.buf.slots[old(d.start)..d.start]
  {
    items := [];
    for i := 0 to k
      invariant d.Valid() && !d.finished && d.end == old(d.end) && d.start == old(d.start) + i
      invariant items == d.buf.slots[old(d.start)..d.start]
    {
      var item := d.Next();
      assert d.buf.slots[old(d.start)..d.start] == d.buf.slots[old(d.start)..d.start - 1] + [item.value];
      items := items + [item.value];
    }
  }

  /** Draining a..b, taking only the first k items with `next` and then
      dropping the Drain: the k items come out in order and the vector still
      loses the whole range, whether the Drain was consumed or not. */
  method DrainPartial(items: seq<int>, a: nat, b: nat, k: nat) returns (drained: seq<int>, rest: seq<int>)
    requires a <= b <= |items| <= MAX_CAPACITY && k <= b - a
    ensures drained == items[a..a + k] && rest == items[..a] + items[b..]
  {
    var v := Build(items);
    assert v.buf.slots[..|items|] == items;
    var r := v.Drain(a, b);
    var d := r.value;
    drained := TakeFront(d, k);
    ghost var before := v.buf.slots[..];
    d.Finish();
    MovedLeftJoins(before, a, b, |items|);
    assert before[..a] == items[..a] && before[b..|items|] == items[b..];
    rest := CollectForward(v);
  }

  /** [0, 1, 2, 3, 4], drain(1..4), one `next_back`: it yields 3, and the
      drain is left with slot 1 before its cursors and slot 3 behind them. */
  method DrainOneBack() returns (v: Vec<int>, d: Iterators.Drain<int>, yielded: Option<int>)
    ensures fresh(v) && fresh(v.buf) && fresh(v.buf.slots) && fresh(d)
    ensures v.Valid() && v.len == 2 && d.Valid() && !d.finished && d.buf == v.buf
    ensures d.start == 1 && d.end == 3 && d.originalStart == 1 && d.originalEnd == 4 && d.len == 5
    ensures v.buf.slots[..5] == [0, 1, 2, 3, 4] && yielded == Some(3)
  {
    v := Build([0, 1, 2, 3, 4]);
    var r := v.Drain(1, 4);
    d := r.value;
    yielded := d.NextBack();
  }

  /** As written, a `next_back` before the drop brings a yielded element back:
      draining 1..4 of [0, 1, 2, 3, 4] after one `next_back` (which yields 3)
      leaves [0, 3] instead of [0, 4]. */
  method DrainBackThenDrop() returns (yielded: Option<int>, rest: seq<int>)
    ensures yielded == Some(3) && rest == [0, 3]
  {
    var v, d;
    v, d, yielded := DrainOneBack();
    ghost var before := v.buf.slots[..];
    d.Finish();
    assert Moved(before, 3, 1, 2)[..2] == [before[0], before[3]];
    rest := CollectForward(v);
  }

  /** With the corrected drop the same run leaves [0, 4]. */
  method DrainBackThenDropCorrected() returns (yielded: Option<int>, rest: seq<int>)
    ensures yielded == Some(3) && rest == [0, 4]
  {
    var v, d;
    v, d, yielded := DrainOneBack();
    ghost var before := v.buf.slots[..];
    d.FinishCorrected();
    assert before[..1] + before[4..5] == [0, 4];
    rest := CollectForward(v);
  }

  /** One round of alternating iteration: `next`, then, when that yielded
      an item, `next_back`. Each yields the slot at its cursor, or None once
      the cursors have met. */
  method TakeBothEnds<T(0)>(it: IntoIter<T>) returns (x: Option<T>, y: Option<T>)
    requires it.Valid()
    modifies it`start, it`end
    ensures it.Valid()
    ensures old(it.start) == old(it.end) ==> x.None? && it.start == old(it.start) && it.end == old(it.end)
    ensures old(it.start) < old(it.end) ==> x == Some(it.buf.slots[old(it.start)]) && it.start == old(it.start) + 1
    ensures old(it.start) + 1 == old(it.end) ==> y.None? && it.end == old(it.end)
    ensures old(it.start) + 1 < old(it.end) ==> y == Some(it.buf.slots[old(it.end) - 1]) && it.end == old(it.end) - 1
  {
    x := it.Next();
    if x.None? {
      return x, None;
    }
    y := it.NextBack();
  }

  /** Alternating `next` and `next_back` over [0, 1, 2, 3, 4] yields 0, 4, 1,
      3, 2; the `next_back` after 2 and the `next` after that give None. */
  method AlternatingEnds() returns (got: seq<Option<int>>)
    ensures got == [Some(0), Some(4), Some(1), Some(3), Some(2), None, None]
  {
    var v := Build([0, 1, 2, 3, 4]);
    var it := v.IntoIter();
    var a, b := TakeBothEnds(it);
    var c, d := TakeBothEnds(it);
    var e, f := TakeBothEnds(it);
    var g := it.Next();
    got := [a, b, c, d, e, f, g];
  }

  /** Adding one to every slot `iter_mut` hands out changes exactly the
      elements, each by one, and no slot past them. */
  method IncrementAll(v: Vec<int>)
    requires v.Valid()
    modifies v.buf.slots
    ensures v.Valid() && |v.Contents()| == |old(v.Contents())|
    ensures forall k :: 0 <= k < v.len ==> v.Contents()[k] == old(v.Contents())[k] + 1
    ensures forall k :: v.len <= k < v.buf.cap ==> v.buf.slots[k] == old(v.buf.slots[k])
  {
    var it := v.IterMut();
    while true
      invariant it.Valid() && it.buf == v.buf && it.end == v.len && v.Valid()
      invariant forall k :: 0 <= k < it.start ==> v.buf.slots[k] == old(v.buf.slots[k]) + 1
      invariant forall k :: it.start <= k < v.buf.cap ==> v.buf.slots[k] == old(v.buf.slots[k])
      decreases it.end - it.start
    {
      var place := it.Next();
      if place.None? {
        break;
      }
      var current := v.buf.slots[place.value];
      v.buf.WriteAt(place.value, current + 1);
    }
  }

  /** Truncating to n below a quarter of the capacity keeps the first n
      elements and gives the memory back. */
  method TruncateShrinks(items: seq<int>, n: nat) returns (capBefore: nat, capAfter: nat, kept: seq<int>)
    requires 4 * (n + 1) <= |items| && MIN_NON_ZERO_CAP < |items| <= MAX_CAPACITY
    ensures n <= capAfter < capBefore && kept == items[..n]
  {
    var v := Build(items);
    capBefore := v.Capacity();
    v.Truncate(n);
    ShrinkBounds(capBefore, n, I32);
    capAfter := v.Capacity();
    kept := CollectForward(v);
  }

  /** One push onto a vector of i32 whose capacity is zero exactly when it is
      empty, and otherwise a power of two of at least 8: the push fits, and the
      capacity afterwards is again such a power of two, 8 from empty and
      otherwise the old capacity or its double. */
  lemma PushCapacityStep(len: nat, cap: nat)
    requires len <= cap && len < MAX_CAPACITY && (len == 0 <==> cap == 0)
    requires cap > 0 ==> IsPowerOfTwo(cap) && cap >= MIN_NON_ZERO_CAP
    ensures PushFits(len, cap, I32)
    ensures var next := if len == cap then ReservedCap(cap, Max(1, cap / 2), I32) else cap;
      && IsPowerOfTwo(next) && next >= MIN_NON_ZERO_CAP && len < next
      && (cap == 0 ==> next == MIN_NON_ZERO_CAP)
      && (cap > 0 ==> next == cap || next == 2 * cap)
  {
    if cap == 0 {
      FirstPushAllocatesMinimum(I32);
      assert IsPowerOfTwo(MIN_NON_ZERO_CAP);
    } else if len == cap {
      PushGrowthDoubles(cap, I32);
    }
  }

  /** A capacity change within the growth ratio: none, or by a factor
      between 1.2 and 2. */
  predicate RatioStep(before: nat, after: nat) {
    after == before || (6 * before <= 5 * after && after <= 2 * before)
  }

  /** A push onto a vector of i32 whose capacity is zero exactly when it is
      empty, and otherwise a power of two of at least 8: the capacity stays
      such a power of two, becomes 8 from empty, and otherwise changes within
      the growth ratio. */
  method PushOntoPowerOfTwo(v: Vec<int>, item: int)
    requires v.Valid() && v.buf.elemSize == I32 && v.len < MAX_CAPACITY && (v.len == 0 <==> v.buf.cap == 0)
    requires v.buf.cap > 0 ==> IsPowerOfTwo(v.buf.cap) && v.buf.cap >= MIN_NON_ZERO_CAP
    modifies v, v.buf, v.buf.slots
    ensures v.Valid() && v.len == old(v.len) + 1 && v.len <= v.buf.cap
    ensures IsPowerOfTwo(v.buf.cap) && v.buf.cap >= MIN_NON_ZERO_CAP
    ensures old(v.buf.cap) == 0 ==> v.buf.cap == MIN_NON_ZERO_CAP
    ensures old(v.buf.cap) > 0 ==> RatioStep(old(v.buf.cap), v.buf.cap)
    ensures v.buf.slots == old(v.buf.slots) || fresh(v.buf.slots)
  {
    PushCapacityStep(v.len, v.buf.cap);
    v.Push(item);
  }

  /** From empty, n pushes of small elements make the capacity 8 on the first
      push and then only ever double it: every change is within [1.2x, 2x]. */
  method GrowthPattern(n: nat) returns (caps: seq<nat>)
    requires n <= MAX_CAPACITY
    ensures |caps| == n && (n > 0 ==> caps[0] == MIN_NON_ZERO_CAP)
    ensures forall i :: 0 <= i < n ==> i < caps[i]
    ensures forall j, k :: 0 <= j && k == j + 1 && k < n ==> RatioStep(caps[j], caps[k])
  {
    var v := new Vec.New(I32);
    caps := [];
    for i := 0 to n
      invariant fresh(v.buf) && fresh(v.buf.slots) && v.Valid() && v.buf.elemSize == I32
      invariant v.len == i && |caps| == i && (i == 0 <==> v.buf.cap == 0)
      invariant i > 0 ==> IsPowerOfTwo(v.buf.cap) && v.buf.cap >= MIN_NON_ZERO_CAP && caps[i - 1] == v.buf.cap
      invariant i > 0 ==> caps[0] == MIN_NON_ZERO_CAP
      invariant forall k :: 0 <= k < i ==> k < caps[k]
      invariant forall j, k :: 0 <= j && k == j + 1 && k < i ==> RatioStep(caps[j], caps[k])
    {
      PushOntoPowerOfTwo(v, i);
      caps := caps + [v.Capacity()];
    }
  }

  /** Clearing keeps the capacity, and pushing no more elements than before
      reuses it without growing. */
  method ClearAndReuse(first: seq<int>, second: seq<int>) returns (capFirst: nat, capCleared: nat, capReused: nat)
    requires |second| <= |first| <= MAX_CAPACITY
    ensures capCleared == capFirst && capReused == capFirst
  {
    var v := Build(first);
    capFirst := v.Capacity();
    v.Clear();
    capCleared := v.Capacity();
    for i := 0 to |second|
      invariant v.Valid() && v.len == i && v.buf.cap == capFirst
      invariant fresh(v.buf.slots)
    {
      v.Push(second[i]);
    }
    capReused := v.Capacity();
  }

  /** with_capacity(100) and twenty pushes use under 25% of the buffer, so
      shrink_to_fit moves the elements to 32 slots. */
  method ShrinkAfterWithCapacity() returns (capBefore: nat, capAfter: nat, kept: seq<int>)
    ensures capBefore == 100 && capAfter == 32 && kept == seq(20, i => i)
  {
    var created := Vec<int>.WithCapacity(I32, 100);
    var v := created.value;
    for i := 0 to 20
      invariant v.Valid() && v.len == i && v.buf.cap == 100 && v.buf.elemSize == I32 && fresh(v.buf.slots)
      invariant v.Contents() == seq(i, k => k)
    {
      v.Push(i);
    }
    capBefore := v.Capacity();
    assert NextPowerOfTwo(20) == 32;
    v.ShrinkToFit();
    capAfter := v.Capacity();
    kept := CollectForward(v);
  }

  /** A raw buffer reserving 5 from empty gets 8 slots; reserving 10 more then
      asks for 18, doubling gives 16, and 32 would round up by more than
      12.5%, so it gets exactly 18. */
  method ReserveTwice() returns (first: nat, second: nat)
    ensures first == 8 && second == 18
  {
    SmallMaxElements(I32);
    var raw := new RawVec<int>.New(I32);
    assert NextPowerOfTwo(8) == 8;
    raw.Reserve(5);
    first := raw.Capacity();
    assert NextPowerOfTwo(18) == 32;
    raw.Reserve(10);
    second := raw.Capacity();
  }
}

=== FILE: raw_vec.dfy ===
/** The raw buffer of the growable array (src/raw_vec.rs): an allocation of
    `cap` element slots that grows, shrinks and moves blocks of slots, but does
    not know which slots hold live elements.

    The allocation is an `array<T>` of exactly `cap` slots. A fresh allocation
    holds arbitrary values, which stands for uninitialised memory. A reallocation
    is a fresh array with the kept prefix copied over. */
module RawBuffer {
  import opened Outcomes
  import opened CapacityPolicy

  // ---------------------------------------------------------------------------
  // Block moves on sequences of slots

  /** memmove on a sequence of slots: the `count` slots starting at `from` are
      copied to the `count` slots starting at `to`; every slot outside the
      destination keeps its value, even where the two ranges overlap. */
  function Moved<T>(s: seq<T>, from: nat, to: nat, count: nat): (r: seq<T>)
    requires from + count <= |s| && to + count <= |s|
    ensures |r| == |s|
  {
    seq(|s|, k requires 0 <= k < |s| => if to <= k < to + count then s[k - to + from] else s[k])
  }

  /** Moving the tail [b, n) down to a closes the gap [a, b): the first
      a + (n - b) slots are the slots before the gap followed by the tail. */
  lemma MovedLeftJoins<T>(s: seq<T>, a: nat, b: nat, n: nat)
    requires a <= b <= n <= |s|
    ensures Moved(s, b, a, n - b)[..a + (n - b)] == s[..a] + s[b..n]
  {
    var r := Moved(s, b, a, n - b);
    forall k | 0 <= k < a + (n - b)
      ensures r[k] == (s[..a] + s[b..n])[k]
    {
      if k >= a {
        assert r[k] == s[k - a + b];
      }
    }
  }

  /** A move of nothing is no move. */
  lemma MovedNothing<T>(s: seq<T>, from: nat, to: nat)
    requires from <= |s| && to <= |s|
    ensures Moved(s, from, to, 0) == s
  {
    assert forall k :: 0 <= k < |s| ==> Moved(s, from, to, 0)[k] == s[k];
  }

  // ---------------------------------------------------------------------------
  // The buffer

  class RawVec<T(0)> {
    /** size_of::<T>() in bytes; 0 for a zero-sized element type. */
    const elemSize: nat
    /** The allocation. */
    var slots: array<T>
    var cap: nat

    /** The allocation has exactly `cap` slots, `cap` fits in a usize, and the
        allocation's layout (cap * size bytes) fits in an isize. */
    ghost predicate Valid()
      reads this
    {
      slots.Length == cap && cap <= USIZE_MAX && (elemSize > 0 ==> LayoutFits(cap, elemSize))
    }

    /** `RawVec::new`: no allocation, capacity 0, for every element size. */
    constructor New(elemSize: nat)
      ensures Valid() && this.elemSize == elemSize && cap == 0 && fresh(slots)
    {
      this.elemSize := elemSize;
      slots := new T[0];
      cap := 0;
    }

    /** A buffer with a fresh allocation of `capacity` slots. */
    constructor Allocated(elemSize: nat, capacity: nat)
      requires capacity <= USIZE_MAX && (elemSize > 0 ==> LayoutFits(capacity, elemSize))
      ensures Valid() && this.elemSize == elemSize && cap == capacity && fresh(slots)
    {
      this.elemSize := elemSize;
      slots := new T[capacity];
      cap := capacity;
    }

    /** `RawVec::with_capacity`: usize::MAX slots for a zero-sized type, 8 slots
        for a request of 0, otherwise exactly the request. A request whose layout
        exceeds isize::MAX bytes panics: in a debug build through the assertion
        on the request, in a release build through the layout's `expect`. */
    static method WithCapacity(elemSize: nat, capacity: nat) returns (r: Outcome<RawVec<T>>)
      requires capacity <= USIZE_MAX
      ensures r.Fatal? <==> elemSize > 0 && !LayoutFits(InitialCap(capacity, elemSize), elemSize)
      ensures r.Fatal? ==> r.panic == LayoutOverflow
      ensures r.Ok? ==> fresh(r.value) && fresh(r.value.slots) && r.value.Valid()
                        && r.value.elemSize == elemSize && r.value.cap == InitialCap(capacity, elemSize)
    {
      if elemSize == 0 {
        var raw := new RawVec.Allocated(0, USIZE_MAX);
        return Ok(raw);
      }
      var c := if capacity == 0 then MIN_NON_ZERO_CAP else capacity;
      if !LayoutFits(c, elemSize) {
        return Fatal(LayoutOverflow);
      }
      var raw := new RawVec.Allocated(elemSize, c);
      return Ok(raw);
    }

    /** The number of slots the allocation has room for. */
    function Capacity(): (c: nat)
      reads this
      requires Valid()
      ensures c == slots.Length
    {
      cap
    }

    /** realloc, or alloc + copy + dealloc: a fresh allocation of `newCap` slots
        whose first `keep` slots are the old ones. */
    method Reallocate(newCap: nat, keep: nat)
      requires Valid() && newCap <= USIZE_MAX && (elemSize > 0 ==> LayoutFits(newCap, elemSize))
      requires keep <= cap && keep <= newCap
      modifies this
      ensures Valid() && cap == newCap && fresh(slots)
      ensures slots[..keep] == old(slots[..keep])
    {
      var allocation := new T[newCap];
      forall i | 0 <= i < keep {
        allocation[i] := slots[i];
      }
      slots, cap := allocation, newCap;
    }

    /** `grow_to`: move to an allocation of `newCap` slots keeping every old
        slot; when that layout is too large, grow to the most elements whose
        layout fits instead, or stay put if already there. Both debug
        assertions become preconditions. */
    method GrowTo(newCap: nat)
      requires Valid() && cap < newCap <= MAX_CAPACITY
      modifies this
      ensures Valid() && cap == GrowToResult(old(cap), newCap, elemSize)
      ensures old(cap) <= cap && slots[..old(cap)] == old(slots[..])
      ensures if cap == old(cap) then slots == old(slots) else fresh(slots)
      decreases if elemSize == 0 || LayoutFits(newCap, elemSize) then 0 else 1
    {
      if elemSize == 0 {
        Reallocate(newCap, cap);
        return;
      }
      if !LayoutFits(newCap, elemSize) {
        var maxElements := Min(ISIZE_MAX / elemSize, MAX_CAPACITY);
        if cap >= maxElements {
          return;
        }
        FitsBelowMaxElements(maxElements, elemSize);
        GrowTo(maxElements);
        return;
      }
      Reallocate(newCap, cap);
    }

    /** `reserve(additional)`: make room for `additional` slots beyond the
        capacity (not beyond any length), growing by the capacity policy and
        keeping every old slot. */
    method Reserve(additional: nat)
      requires Valid() && additional <= USIZE_MAX && GrowthAdvances(cap, additional, elemSize)
      modifies this
      ensures Valid() && cap == ReservedCap(old(cap), additional, elemSize)
      ensures old(cap) <= cap && slots[..old(cap)] == old(slots[..])
      ensures if cap == old(cap) then slots == old(slots) else fresh(slots)
    {
      if elemSize == 0 {
        if cap != USIZE_MAX {
          Reallocate(USIZE_MAX, cap);
        }
        return;
      }
      var requiredCap := if cap + additional <= USIZE_MAX then cap + additional else MAX_CAPACITY;
      var maxElements := Min(ISIZE_MAX / Max(elemSize, 1), MAX_CAPACITY);
      var cappedRequired := Min(requiredCap, maxElements);
      if cappedRequired <= cap {
        return;
      }
      GrowthRequestBounded(cap, cappedRequired, elemSize);
      if cap == 0 {
        var newCap := Max(cappedRequired, MIN_NON_ZERO_CAP);
        GrowTo(NextPowerOfTwo(newCap));
        return;
      }
      var newCap := CalculateGrowth(cap, cappedRequired, elemSize);
      GrowTo(newCap);
    }

    /** `shrink_to_fit(len)`: move the first `len` slots to a smaller allocation
        when the shrink rule says so; a zero-sized type always reports
        usize::MAX slots. */
    method ShrinkToFit(len: nat)
      requires Valid() && len <= cap
      modifies this
      ensures Valid() && cap == ShrunkCap(old(cap), len, elemSize)
      ensures len <= cap && slots[..len] == old(slots[..len])
      ensures if cap == old(cap) then slots == old(slots) else fresh(slots)
    {
      if elemSize == 0 {
        if cap != USIZE_MAX {
          Reallocate(USIZE_MAX, len);
        }
        return;
      }
      if len >= cap - cap / 4 {
        return;
      }
      if ShouldShrink(cap, len, elemSize) {
        var newCap := NextPowerOfTwo(len);
        newCap := Max(newCap, MIN_NON_ZERO_CAP);
        if newCap < cap {
          MulMonotone(newCap, cap, elemSize);
          Reallocate(newCap, len);
        }
      }
    }

    /** `read_at`: move the value out of slot `index`. */
    method ReadAt(index: nat) returns (item: T)
      requires Valid() && index < cap
      ensures item == slots[index]
    {
      item := slots[index];
    }

    /** `write_at`: put `item` into slot `index`; no other slot changes. */
    method WriteAt(index: nat, item: T)
      requires Valid() && index < cap
      modifies slots
      ensures slots[..] == old(slots[..])[index := item]
    {
      slots[index] := item;
    }

    /** `get_ref`: the value in slot `index`, by shared reference. */
    method GetRef(index: nat) returns (item: T)
      requires Valid() && index < cap
      ensures item == slots[index]
    {
      item := slots[index];
    }

    /** `get_mut`: a mutable reference to slot `index`, modelled as the slot it
        designates; writing through it is WriteAt at that slot. */
    method GetMut(index: nat) returns (place: nat)
      requires Valid() && index < cap
      ensures place == index && place < slots.Length
    {
      place := index;
    }

    /** `shift_right(index, count, places)`: reserve up to index + places +
        count when that passes the capacity, then move the `count` slots at
        `index` up by `places`. The end position overflowing usize panics; the
        debug assertions, and the reserve reaching the end position, are
        preconditions. */
    method ShiftRight(index: nat, count: nat, places: nat) returns (r: Outcome<()>)
      requires Valid() && index + count <= cap && index + places <= USIZE_MAX
      requires index + places + count <= USIZE_MAX && index + places + count > cap ==>
        GrowthAdvances(cap, index + places + count - cap, elemSize)
        && ReservedCap(cap, index + places + count - cap, elemSize) >= index + places + count
      modifies this, slots
      ensures Valid()
      ensures if cap == old(cap) then slots == old(slots) else fresh(slots)
      ensures r.Fatal? <==> index + places + count > USIZE_MAX
      ensures r.Fatal? ==> r.panic == ShiftPositionOverflow && cap == old(cap) && slots == old(slots)
                           && slots[..] == old(slots[..])
      ensures r.Ok? ==>
        var newEnd := index + places + count;
        && cap == (if newEnd > old(cap) then ReservedCap(old(cap), newEnd - old(cap), elemSize) else old(cap))
        && old(cap) <= cap && newEnd <= cap
        && (forall k :: 0 <= k < old(cap) && !(index + places <= k < newEnd) ==> slots[k] == old(slots[k]))
        && (forall k :: index + places <= k < newEnd ==> slots[k] == old(slots[k - places]))
    {
      var newEnd := index + places + count;
      if newEnd > USIZE_MAX {
        return Fatal(ShiftPositionOverflow);
      }
      if newEnd > cap {
        Reserve(newEnd - cap);
      }
      forall k | index + places <= k < newEnd {
        slots[k] := slots[k - places];
      }
      return Ok(());
    }

    /** `shift_left(index, count, places)`: move the `count` slots at `index`
        down by `places`; a count of 0 does nothing, and moving below slot 0
        panics. The debug assertions on the source block are preconditions. */
    method ShiftLeft(index: nat, count: nat, places: nat) returns (r: Outcome<()>)
      requires Valid()
      requires count > 0 ==> index + count <= cap
      modifies slots
      ensures r.Fatal? <==> count > 0 && places > index
      ensures r.Fatal? ==> r.panic == ShiftIndexUnderflow
      ensures r.Fatal? || count == 0 ==> slots[..] == old(slots[..])
      ensures r.Ok? && count > 0 ==> slots[..] == Moved(old(slots[..]), index, index - places, count)
    {
      if count == 0 {
        return Ok(());
      }
      if places > index {
        return Fatal(ShiftIndexUnderflow);
      }
      var newIndex := index - places;
      forall k | newIndex <= k < newIndex + count {
        slots[k] := slots[k + places];
      }
      return Ok(());
    }

    /** `clone`: a buffer from `with_capacity(cap)` holding a copy of every slot.
        From capacity 0 that is a fresh 8-slot buffer. */
    method Clone() returns (r: Outcome<RawVec<T>>)
      requires Valid()
      ensures r.Fatal? <==> elemSize > 0 && !LayoutFits(InitialCap(cap, elemSize), elemSize)
      ensures r.Fatal? ==> r.panic == LayoutOverflow
      ensures r.Ok? ==> fresh(r.value) && fresh(r.value.slots) && r.value.Valid()
                        && r.value.elemSize == elemSize && r.value.cap == InitialCap(cap, elemSize)
                        && cap <= r.value.cap && r.value.slots[..cap] == slots[..]
    {
      if elemSize > 0 {
        MulMonotone(1, elemSize, cap);
      }
      var created := WithCapacity(elemSize, cap);
      if created.Fatal? {
        return created;
      }
      var copy := created.value;
      for i := 0 to cap
        invariant copy.Valid() && copy.cap == InitialCap(cap, elemSize) && fresh(copy.slots)
        invariant copy.slots[..i] == slots[..i]
      {
        var item := ReadAt(i);
        copy.WriteAt(i, item);
      }
      return Ok(copy);
    }
  }
}

=== FILE: vec.dfy ===
/** The growable array itself (src/lib.rs): a raw buffer plus a length. The
    first `len` slots of the buffer hold the elements, in order; the rest are
    uninitialised. Every operation is stated against `Contents()`, the
    sequence of those first `len` slots. */
module Container {
  import opened Outcomes
  import opened CapacityPolicy
  import opened RawBuffer
  import opened Iterators

  /** The elements after an insertion at `index`: the same prefix, then the
      item, then the old elements from `index` on, each one slot higher. */
  lemma InsertedAt<T>(before: seq<T>, mid: seq<T>, after: seq<T>, index: nat, item: T)
    requires index <= |before| < |mid| && |after| == |before| + 1 && before == mid[..|before|]
    requires forall k :: 0 <= k < index ==> after[k] == mid[k]
    requires after[index] == item
    requires forall k :: index < k < |after| ==> after[k] == mid[k - 1]
    ensures after == before[..index] + [item] + before[index..]
  {
    var expected := before[..index] + [item] + before[index..];
    forall k | 0 <= k < |after|
      ensures after[k] == expected[k]
    {
      if k > index {
        assert expected[k] == before[k - 1];
      }
    }
  }

  class Vec<T(0)> {
    const buf: RawVec<T>
    var len: nat

    ghost predicate Valid()
      reads this, buf
    {
      buf.Valid() && len <= buf.cap
    }

    /** The elements, in order. */
    ghost function Contents(): seq<T>
      reads this, buf, buf.slots
      requires Valid()
    {
      buf.slots[..len]
    }

    /** `Vec::new`: empty, with no allocation (capacity 0). */
    constructor New(elemSize: nat)
      ensures Valid() && fresh(buf) && fresh(buf.slots) && buf.elemSize == elemSize
      ensures buf.cap == 0 && Contents() == []
    {
      buf := new RawVec.New(elemSize);
      len := 0;
    }

    /** The struct literal `Vec { buf, len }`. */
    constructor FromParts(buf: RawVec<T>, len: nat)
      requires buf.Valid() && len <= buf.cap
      ensures Valid() && this.buf == buf && this.len == len
    {
      this.buf := buf;
      this.len := len;
    }

    /** `Vec::with_capacity`: empty, over `RawVec::with_capacity(capacity)`. */
    static method WithCapacity(elemSize: nat, capacity: nat) returns (r: Outcome<Vec<T>>)
      requires capacity <= USIZE_MAX
      ensures r.Fatal? <==> elemSize > 0 && !LayoutFits(InitialCap(capacity, elemSize), elemSize)
      ensures r.Fatal? ==> r.panic == LayoutOverflow
      ensures r.Ok? ==> fresh(r.value) && fresh(r.value.buf) && fresh(r.value.buf.slots) && r.value.Valid()
                        && r.value.buf.elemSize == elemSize && r.value.buf.cap == InitialCap(capacity, elemSize)
                        && r.value.Contents() == []
    {
      var raw := RawVec<T>.WithCapacity(elemSize, capacity);
      if raw.Fatal? {
        return Fatal(raw.panic);
      }
      var v := new Vec.FromParts(raw.value, 0);
      return Ok(v);
    }

    /** `capacity`: the slots the buffer has room for, never fewer than the
        elements. */
    function Capacity(): (c: nat)
      reads this, buf, buf.slots
      requires Valid()
      ensures c == buf.slots.Length && |Contents()| <= c
    {
      buf.Capacity()
    }

    /** `len`: the number of elements. */
    function Len(): (n: nat)
      reads this, buf, buf.slots
      requires Valid()
      ensures n == |Contents()|
    {
      len
    }

    /** `is_empty`: there are no elements. */
    function IsEmpty(): (b: bool)
      reads this, buf, buf.slots
      requires Valid()
      ensures b <==> Contents() == []
    {
      len == 0
    }

    /** `reserve(additional)`: the buffer's reserve, relative to the capacity;
        the elements do not change. */
    method Reserve(additional: nat)
      requires Valid() && additional <= USIZE_MAX && GrowthAdvances(buf.cap, additional, buf.elemSize)
      modifies buf
      ensures Valid() && Contents() == old(Contents())
      ensures buf.cap == ReservedCap(old(buf.cap), additional, buf.elemSize)
      ensures if buf.cap == old(buf.cap) then buf.slots == old(buf.slots) else fresh(buf.slots)
    {
      buf.Reserve(additional);
      assert buf.slots[..len] == buf.slots[..old(buf.cap)][..len];
    }

    /** The block push and insert share: at capacity, reserve max(1, cap / 2)
        more slots. Afterwards there is a free slot and the elements are
        unchanged. */
    method GrowIfFull()
      requires Valid() && PushFits(len, buf.cap, buf.elemSize)
      modifies buf
      ensures Valid() && Contents() == old(Contents()) && len < buf.cap
      ensures buf.cap == if len == old(buf.cap)
                         then ReservedCap(old(buf.cap), Max(1, old(buf.cap) / 2), buf.elemSize)
                         else old(buf.cap)
      ensures if buf.cap == old(buf.cap) then buf.slots == old(buf.slots) else fresh(buf.slots)
    {
      if len == Capacity() {
        var additional := Max(1, Capacity() / 2);
        Reserve(additional);
      }
    }

    /** `push(item)`: at capacity, first reserve max(1, cap / 2) more slots;
        then `item` becomes the last element. The length cannot overflow: it
        stays below the capacity, itself at most usize::MAX. */
    method Push(item: T)
      requires Valid() && PushFits(len, buf.cap, buf.elemSize)
      modifies this, buf, buf.slots
      ensures Valid() && Contents() == old(Contents()) + [item]
      ensures buf.cap == if old(len) == old(buf.cap)
                         then ReservedCap(old(buf.cap), Max(1, old(buf.cap) / 2), buf.elemSize)
                         else old(buf.cap)
      ensures buf.slots == old(buf.slots) || fresh(buf.slots)
    {
      GrowIfFull();
      buf.WriteAt(len, item);
      len := len + 1;
    }

    /** `pop`: None, and no change, exactly when empty; otherwise the last
        element, removed. */
    method Pop() returns (r: Option<T>)
      requires Valid()
      modifies this`len
      ensures Valid()
      ensures r.None? <==> old(len) == 0
      ensures r.None? ==> Contents() == old(Contents())
      ensures r.Some? ==> old(Contents()) == Contents() + [r.value]
    {
      if len == 0 {
        return None;
      }
      len := len - 1;
      var item := buf.ReadAt(len);
      return Some(item);
    }

    /** `insert(index, item)`: panics when index > len; otherwise grows as push
        does, moves the elements from `index` up one slot and puts `item` at
        `index`. */
    method Insert(index: nat, item: T) returns (r: Outcome<()>)
      requires Valid() && (index <= len ==> PushFits(len, buf.cap, buf.elemSize))
      modifies this, buf, buf.slots
      ensures Valid()
      ensures r.Fatal? <==> index > old(len)
      ensures r.Fatal? ==> r.panic == InsertionIndex(index, old(len)) && len == old(len)
                           && buf.cap == old(buf.cap) && buf.slots == old(buf.slots)
                           && Contents() == old(Contents())
      ensures r.Ok? ==> Contents() == old(Contents())[..index] + [item] + old(Contents())[index..]
      ensures r.Ok? ==> buf.cap == if old(len) == old(buf.cap)
                                   then ReservedCap(old(buf.cap), Max(1, old(buf.cap) / 2), buf.elemSize)
                                   else old(buf.cap)
      ensures buf.slots == old(buf.slots) || fresh(buf.slots)
    {
      if index > len {
        return Fatal(InsertionIndex(index, len));
      }
      GrowIfFull();
      InsertWithRoom(index, item);
      return Ok(());
    }

    /** The rest of `insert` once there is a free slot: the shift never has
        to grow the buffer, and `item` lands at `index`. */
    method InsertWithRoom(index: nat, item: T)
      requires Valid() && index <= len < buf.cap
      modifies this, buf, buf.slots
      ensures Valid() && buf.cap == old(buf.cap) && buf.slots == old(buf.slots)
      ensures Contents() == old(Contents())[..index] + [item] + old(Contents())[index..]
    {
      ghost var before := Contents();
      ghost var mid := buf.slots[..];
      var shifted := buf.ShiftRight(index, len - index, 1);
      assert shifted.Ok?;
      buf.WriteAt(index, item);
      len := len + 1;
      InsertedAt(before, mid, Contents(), index, item);
    }

    /** `remove(index)`: panics when index >= len; otherwise the element at
        `index`, with the elements after it moved down one slot. */
    method Remove(index: nat) returns (r: Outcome<T>)
      requires Valid()
      modifies this`len, buf.slots
      ensures Valid() && buf.cap == old(buf.cap)
      ensures r.Fatal? <==> index >= old(len)
      ensures r.Fatal? ==> r.panic == RemovalIndex(index, old(len)) && len == old(len)
                           && Contents() == old(Contents())
      ensures r.Ok? ==> r.value == old(Contents())[index]
                        && Contents() == old(Contents())[..index] + old(Contents())[index + 1..]
    {
      if index >= len {
        return Fatal(RemovalIndex(index, len));
      }
      ghost var before := buf.slots[..];
      assert Contents()[..index] == before[..index] && Contents()[index + 1..] == before[index + 1..len];
      var item := buf.ReadAt(index);
      var count := len - (index + 1);
      var shifted := buf.ShiftLeft(index + 1, count, 1);
      if count == 0 {
        MovedNothing(before, index + 1, index);
      }
      assert buf.slots[..] == Moved(before, index + 1, index, count);
      MovedLeftJoins(before, index, index + 1, len);
      len := len - 1;
      return Ok(item);
    }

    /** `shrink_to_fit`: the buffer's shrink rule at the current length; the
        elements do not change. */
    method ShrinkToFit()
      requires Valid()
      modifies buf
      ensures Valid() && Contents() == old(Contents())
      ensures buf.cap == ShrunkCap(old(buf.cap), len, buf.elemSize)
      ensures if buf.cap == old(buf.cap) then buf.slots == old(buf.slots) else fresh(buf.slots)
    {
      buf.ShrinkToFit(len);
    }

    /** `truncate(n)`: pop down to min(n, len) elements, keeping the first
        ones; then shrink if fewer than a quarter of the capacity is used. */
    method Truncate(n: nat)
      requires Valid()
      modifies this`len, buf
      ensures Valid() && Contents() == old(Contents())[..Min(n, old(len))]
      ensures var kept := Min(n, old(len));
        buf.cap == if kept < old(buf.cap) / 4 then ShrunkCap(old(buf.cap), kept, buf.elemSize) else old(buf.cap)
      ensures if buf.cap == old(buf.cap) then buf.slots == old(buf.slots) else fresh(buf.slots)
    {
      while len > n
        invariant Valid() && buf.cap == old(buf.cap) && buf.slots == old(buf.slots)
        invariant Min(n, old(len)) <= len <= old(len)
        invariant Contents() == old(Contents())[..len]
        decreases len
      {
        var popped := Pop();
      }
      if len < Capacity() / 4 {
        ShrinkToFit();
      }
    }

    /** `clear`: pop until empty; the capacity and the buffer stay. */
    method Clear()
      requires Valid()
      modifies this`len
      ensures Valid() && Contents() == [] && buf.cap == old(buf.cap)
    {
      var popped := Pop();
      while popped.Some?
        invariant Valid() && (popped.None? ==> len == 0)
        decreases len + (if popped.Some? then 1 else 0)
      {
        popped := Pop();
      }
    }

    /** `iter`: a shared iterator over the elements. */
    method Iter() returns (it: Iter<T>)
      requires Valid()
      ensures fresh(it) && it.Valid() && it.buf == buf && it.start == 0 && it.end == len
      ensures it.Remaining() == Contents() && it.Yielded() == {}
    {
      it := new Iter(buf, 0, len);
    }

    /** `iter_mut`: a mutable iterator over the slots of the elements. */
    method IterMut() returns (it: IterMut<T>)
      requires Valid()
      ensures fresh(it) && it.Valid() && it.buf == buf && it.start == 0 && it.end == len
      ensures |it.Remaining()| == |Contents()| && it.Yielded() == {}
    {
      it := new IterMut(buf, 0, len);
    }

    /** `into_iter`: an owning iterator over the elements. */
    method IntoIter() returns (it: IntoIter<T>)
      requires Valid()
      ensures fresh(it) && it.Valid() && it.buf == buf && it.start == 0 && it.end == len
      ensures it.Remaining() == Contents() && it.Yielded() == {}
    {
      it := new IntoIter(buf, 0, len);
    }

    /** `drain(rangeStart..rangeEnd)`: panics unless rangeStart <= rangeEnd <=
        len; otherwise the length drops by the size of the range at once, and
        the Drain yields exactly the elements of the range. */
    method Drain(rangeStart: nat, rangeEnd: nat) returns (r: Outcome<Iterators.Drain<T>>)
      requires Valid()
      modifies this`len
      ensures Valid()
      ensures r.Fatal? <==> rangeStart > rangeEnd || rangeEnd > old(len)
      ensures r.Fatal? ==> len == old(len)
                           && r.panic == if rangeStart > rangeEnd then DrainRangeInverted(rangeStart, rangeEnd)
                                         else DrainRangePastEnd(rangeEnd, old(len))
      ensures r.Ok? ==>
        && fresh(r.value) && r.value.Valid() && !r.value.finished && r.value.buf == buf
        && r.value.start == rangeStart && r.value.end == rangeEnd && r.value.len == old(len)
        && r.value.originalStart == rangeStart && r.value.originalEnd == rangeEnd
        && r.value.Yielded() == {} && r.value.Remaining() == old(Contents())[rangeStart..rangeEnd]
        && len == old(len) - (rangeEnd - rangeStart)
    {
      if rangeStart > rangeEnd {
        return Fatal(DrainRangeInverted(rangeStart, rangeEnd));
      }
      if rangeEnd > len {
        return Fatal(DrainRangePastEnd(rangeEnd, len));
      }
      var origLen := len;
      assert buf.slots[rangeStart..rangeEnd] == Contents()[rangeStart..rangeEnd];
      len := len - (rangeEnd - rangeStart);
      var d := new Iterators.Drain(buf, rangeStart, rangeEnd, origLen);
      return Ok(d);
    }

    /** `self[index]`: panics when index >= len; otherwise the element there. */
    method Index(index: nat) returns (r: Outcome<T>)
      requires Valid()
      ensures r.Fatal? <==> index >= len
      ensures r.Fatal? ==> r.panic == IndexOutOfBounds(index, len)
      ensures r.Ok? ==> r.value == Contents()[index]
    {
      if index >= len {
        return Fatal(IndexOutOfBounds(index, len));
      }
      var item := buf.GetRef(index);
      return Ok(item);
    }

    /** `&mut self[index]`: panics when index >= len; otherwise the slot of
        that element. */
    method IndexMut(index: nat) returns (r: Outcome<nat>)
      requires Valid()
      ensures r.Fatal? <==> index >= len
      ensures r.Fatal? ==> r.panic == IndexOutOfBounds(index, len)
      ensures r.Ok? ==> r.value == index && r.value < |Contents()|
    {
      if index >= len {
        return Fatal(IndexOutOfBounds(index, len));
      }
      var place := buf.GetMut(index);
      return Ok(place);
    }

    /** `extend(iter)`: reserve what the iterator's size hint promises (its
        upper bound, else its lower bound), then push every item in order.
        The items are the iterator's, the hint is passed separately because a
        size hint need not be exact. */
    method Extend(items: seq<T>, lower: nat, upper: Option<nat>)
      requires Valid() && GrowthSafe(buf.cap, buf.elemSize)
      requires len + |items| <= ElementLimit(buf.elemSize)
      requires (if upper.Some? then upper.value else lower) <= USIZE_MAX
      modifies this, buf, buf.slots
      ensures Valid() && GrowthSafe(buf.cap, buf.elemSize)
      ensures Contents() == old(Contents()) + items
      ensures buf.cap >= ReservedCap(old(buf.cap), if upper.Some? then upper.value else lower, buf.elemSize)
      ensures buf.slots == old(buf.slots) || fresh(buf.slots)
    {
      var hint := if upper.Some? then upper.value else lower;
      GrowthSafeAdvances(buf.cap, hint, buf.elemSize);
      GrowthSafeAfterReserve(buf.cap, hint, buf.elemSize);
      Reserve(hint);
      for i := 0 to |items|
        invariant Valid() && GrowthSafe(buf.cap, buf.elemSize)
        invariant len == old(len) + i
        invariant Contents() == old(Contents()) + items[..i]
        invariant buf.cap >= ReservedCap(old(buf.cap), hint, buf.elemSize)
        invariant buf.slots == old(buf.slots) || fresh(buf.slots)
      {
        GrowthSafePushFits(len, buf.cap, buf.elemSize);
        GrowthSafeAfterReserve(buf.cap, Max(1, buf.cap / 2), buf.elemSize);
        Push(items[i]);
        assert items[..i + 1] == items[..i] + [items[i]];
      }
      assert items[..|items|] == items;
    }

    /** `FromIterator::from_iter`: a new vector extended by the items. */
    static method FromIter(elemSize: nat, items: seq<T>, lower: nat, upper: Option<nat>) returns (v: Vec<T>)
      requires |items| <= ElementLimit(elemSize)
      requires (if upper.Some? then upper.value else lower) <= USIZE_MAX
      ensures fresh(v) && fresh(v.buf) && v.Valid() && v.buf.elemSize == elemSize
      ensures GrowthSafe(v.buf.cap, elemSize) && v.Contents() == items
      ensures v.buf.cap >= ReservedCap(0, if upper.Some? then upper.value else lower, elemSize)
    {
      v := new Vec.New(elemSize);
      v.Extend(items, lower, upper);
    }

    /** `clone`: the same elements over a clone of the buffer, which from
        capacity 0 is a fresh 8-slot buffer. */
    method Clone() returns (r: Outcome<Vec<T>>)
      requires Valid()
      ensures r.Fatal? <==> buf.elemSize > 0 && !LayoutFits(InitialCap(buf.cap, buf.elemSize), buf.elemSize)
      ensures r.Fatal? ==> r.panic == LayoutOverflow
      ensures r.Ok? ==> fresh(r.value) && fresh(r.value.buf) && r.value.Valid()
                        && r.value.buf.elemSize == buf.elemSize
                        && r.value.buf.cap == InitialCap(buf.cap, buf.elemSize)
                        && r.value.Contents() == Contents()
    {
      var raw := buf.Clone();
      if raw.Fatal? {
        return Fatal(raw.panic);
      }
      var v := new Vec.FromParts(raw.value, len);
      assert v.Contents() == raw.value.slots[..buf.cap][..len];
      return Ok(v);
    }
  }
}
